=== FILE: README.md ===
# slick-web gateway core, modelled in Dafny

slick-web is an HTTP gateway in front of a content-addressed volume store. Its
route handlers (`index.js`) contain small pieces of pure decision logic between
the calls into the storage engine. This project pulls that logic out as total
functions over plain datatypes and proves what it does:

- **Range negotiation** for `GET /volumes/:name/file/<path>` (module `Ranges`).
  This is a single-range subset of the `bytes=first-last` syntax in section 2.1
  of RFC 7233, answered with the `Content-Range` of section 4.2. The handler's
  three boundary choices are kept as written:
  - `start >= end` is refused, so a single-byte range is never served;
  - `end == size` is accepted, and the stream window then reaches one byte past
    the file;
  - `end > size` is refused rather than clipped.
  Lemmas compare the handler with an RFC reference outcome, case by case.
- **Validation of `POST /operations`** (module `Mutations`). `mkdir`, `copy`,
  `move` and `add` requests are checked field by field in source order, using a
  model of JavaScript values, truthiness and property reads (module `Js`). The
  first failing check decides the 400 message. A field read of a missing object
  throws a TypeError. The handler's nested tests are proved equal to "first
  failing check wins" over an explicit check list. The engine's outcome then
  decides the final reply (204, 303 to the new operation, 400, 500).
- **Error mapping** (module `ErrorMap`). Each handler's `if (err && err.isX)`
  chain is a rule list tried in order. The engine error carries two
  independent flags, so the order in which a handler tests them is observable.
  Every handler's chain is compared with the uniform policy "not-found is
  404, invalid-data is 400, anything else is 500", and a lemma shows where it
  differs:
  - volume deletion and entry listing follow it exactly;
  - cancel, volume creation and entry removal turn not-found into 500;
  - fetching a volume turns invalid-data into 500;
  - `HEAD` sends the engine's message with its 404 and turns invalid-data into 500;
  - the `add` volume lookup turns not-found into 400 "cannot find volume";
  - `mkdir`/`copy`/`move` leave the response unanswered on any error other
    than invalid-data;
  - the handlers that classify nothing (`GET /volumes`, `GET /operations`, fetching an operation,
    starting an `add`, and `GET` of file content) match it only on errors with
    neither flag.
- **Event-stream framing** (module `EventStream`). A connection is a counter
  plus the frames it has written. Every emit writes `id: n\n` and
  `data:<payload>\n\n`, then advances the counter. A decoder reads the stream
  back, and the round trip shows that ids are 0, 1, 2, ... in emission order
  and that emitting never alters earlier output.
- **Resource projections** (module `Projection`): `volumeAsJson` and
  `entryAsJson`. The volume URL and the hex digest each have a proved inverse.
  Node's posix `path.basename` keeps only the last segment, so it has no
  inverse; it is characterised by `BasenameOfJoin` and `BasenameOfSegment`.
- **Content delivery** (module `Content`): `HEAD` header selection by object
  type (`fo`, `fl`, anything else), and the `GET` file reply, whole or ranged.
- **Listings and the remaining handlers** (modules `Volumes`, `Operations`):
  `GET /volumes` and `GET /operations` as loops, plus volume create, fetch and
  delete, entry listing and removal, and operation cancel and fetch.

Behaviour of the handlers worth noting:

- `mkdir`/`copy`/`move` with a non-invalid-data engine error run
  `res.status(500)` and never end the response. The model returns
  `Unanswered(500)`, not a 500 reply.
- The event `data:` line has no space after the colon.
- `DELETE /volumes/:name` answers 204 on success. The unit test expects 202;
  the model follows the handler.
- Handlers do not share one error policy. `DELETE /operations/:id` turns
  not-found into 500, `GET /volumes/:name` turns invalid-data into 500, and
  `GET .../file/<path>` turns every error into 500.

The support modules are `Wrappers` (Option/Result), `Decimal` (decimal text of
numbers, with both round trips), `Strings` (first occurrence, split, and
JavaScript's first-match `replace`) and `Http` (engine errors, replies,
headers).

## Model

| member | source | states |
|---|---|---|
| Ranges.Negotiate | index.js:308-324 | 400 "start is greater than end" iff start >= effective end; 400 "end exceeds file length" iff start < end and end > size; otherwise 206 with start/end as asked, Content-Length = end - start + 1, and a stream window starting at start whose length equals Content-Length |
| Strings.RemoveFirst | index.js:307 | `replace` with a plain pattern removes exactly the first occurrence, found by FindFrom, and leaves text without one unchanged |
| Ranges.ParseAfterUnit | index.js:307 | a header that starts with `bytes=` is read as the text after it |
| Ranges.ParseRangeBodyWithDash | index.js:307-310 | text `d1-d2`, possibly followed by a dash and anything, is read iff d1 is a non-empty digit string and d2 a digit string; it reads as first = d1 and last = d2, or no last byte when d2 is empty |
| Ranges.ParseRangeBodyWithoutDash | index.js:307-310 | text with no dash is read iff it is a non-empty digit string, as an open-ended range from that byte |
| Ranges.NegotiateHeaderText | index.js:305-314 | `bytes=d1-d2` (possibly followed by a dash and anything) is Unparsed iff d1 is not a non-empty digit string or d2 is not a digit string; otherwise it is negotiated as the range d1 to d2 |
| Ranges.NoDashIsOpenEnded | index.js:307-311 | `bytes=d1` with no dash takes the falsy `positions[1]` branch and is answered exactly like `bytes=d1-`, a range to the end of the file |
| Ranges.ParseFormatRangeHeader | index.js:306-310 | every range request a client can write (with or without a last byte) is read back as exactly that range |
| Ranges.UnitIsOptional | index.js:307 | since `bytes=` is removed rather than required, a bare `first-last` reads the same as `bytes=first-last` |
| Ranges.ParseContentRangeRoundTrip | index.js:317 | the `Content-Range` text `bytes start-end/size` reads back as those three numbers |
| Ranges.ContentRangeNamesWindow | index.js:316-317 | an accepted range's Content-Range names the requested start, the effective end and the file size |
| Ranges.TenBytesOfThirtyFour | index.js:305-321 | `bytes=0-9` on a 34-byte file gives 206, `bytes 0-9/34`, Content-Length 10 |
| Ranges.SingleByteRefused | index.js:313 | a range whose first and last byte coincide is refused with "start is greater than end" for every file size |
| Ranges.OpenEndedRange | index.js:310-311 | with no last byte the end defaults to size - 1, the length is size - first and the window ends at size |
| Ranges.WindowInsideFile | index.js:314-324 | the accepted window `[start, end + 1)` stays inside the file iff end < size; at end == size it reaches size + 1 |
| Ranges.AcceptedInsideFileIsRfc | index.js:313-314 | every accepted range that ends inside the file is served exactly as RFC 7233 serves it |
| Ranges.RfcServedAcceptedExactly | index.js:313-314 | of the ranges RFC 7233 serves unclipped, the handler accepts exactly those of two or more bytes, with the same window |
| Ranges.EndAtSizeAccepted | index.js:314 | last byte == size is accepted, where RFC 7233 would clip it to size - 1 |
| Ranges.EndPastSizeRefused | index.js:314 | last byte > size is refused with 400, where RFC 7233 would clip it to size - 1 |
| Mutations.Validate | index.js:51-114 | a nullish body throws at the first field read; a dispatched command is a mkdir, copy, move or add exactly when `type` names that kind; it carries what the handler passes to the engine: target.name and target.path for mkdir; source and destination name and path plus `force` for copy/move; destination name and path, the `sources` array and the policy `conflict` names for add |
| Js.ToStr | index.js:100 | `String(v)` as the conflict message appends it: strings as themselves, integers in decimal with a minus sign when negative, `undefined`, `null`, `true`/`false`, `[object Object]` for objects, and arrays comma-joined |
| Js.ShortArrayText | index.js:100 | an empty array prints as nothing and a one-element array as its element, nullish as nothing |
| Mutations.ConflictModeOf | index.js:95-100 | "skip", "replace" and "rename" name the Skip, Replace and Rename policies respectively, and nothing else names a policy |
| Mutations.FirstFailure | index.js:97-100 | the result is Pass iff every check passes; otherwise it is the first check that does not pass |
| Mutations.ValidateIsFirstFailure | index.js:51-114 | the handler's nested tests reject, throw or dispatch exactly as "first failing check wins" over the per-type check list (mkdir: target.name, target.path; copy/move: source.name, source.path, destination.name, destination.path; add: destination.name, destination.path, sources array, conflict mode) |
| Mutations.ConflictDefaultsToSkip | index.js:95 | an `add` with a falsy `conflict` that is dispatched uses the skip policy |
| Mutations.UnknownConflictRefused | index.js:100 | an `add` passing the first three checks, with a conflict string outside skip/replace/rename, is refused with "unknown conflict mode " followed by that string |
| Mutations.AddDispatchedExactly | index.js:92-105 | an `add` is dispatched iff destination has a truthy name and path, sources is an array, and conflict is falsy or one of the three policies |
| Mutations.OtherTypesRefused | index.js:112-113 | on any non-nullish body, objects and arrays alike, a type other than mkdir/copy/move/add is refused with "source is not of type slick or local" |
| Mutations.ArrayBodyRefused | index.js:52-113 | a JSON array body has no `type` and is refused with "source is not of type slick or local" |
| Mutations.SyncReply | index.js:58-90 | after mkdir/copy/move: success is 204; invalid-data is 400 with the engine message; any other error leaves the response unanswered with status 500 |
| Mutations.AddReply | index.js:102-109 | a missing destination volume is 400 "cannot find volume"; other lookup errors and failures to start are 500; otherwise 303 to a URL that names the new operation's id in canonical decimal, which by OperationIdFromUrlSound is exactly `/api/operations/<id>` |
| Operations.OperationUrlRoundTrip | index.js:108 | the redirect location `/api/operations/<id>` reads back as the id |
| Operations.OperationIdFromUrlSound | index.js:108 | any text that reads as an operation id (prefix, then digits with no leading zero) is exactly `/api/operations/` followed by that id's decimal text |
| Operations.EventsUrlRoundTrip | index.js:134 | the events URL `/api/operations/<id>/events` reads back as the id |
| Operations.OperationIdFromEventsUrlSound | index.js:134 | any text that reads as an event-stream id is exactly `/api/operations/<id>/events` for that id |
| Operations.CancelReply | index.js:120-124 | cancel success is 204; invalid-data is 400 with the engine message; every other error, not-found included, is 500 |
| Operations.GetOperationReply | index.js:130-135 | any engine error is 500; an unknown id is 404; otherwise 200 with the job's state and an events URL naming the same id, which by OperationIdFromEventsUrlSound is exactly `/api/operations/<id>/events` |
| Operations.ListOperations | index.js:40-48 | an iteration error is 500 with nothing listed; otherwise 200 with one record per registry entry, in order, with each field copied and the kind tagged "add" |
| ErrorMap.MapError | index.js:216-218 | the reply is the one of the first rule whose flag the error carries; with no matching rule it is the handler's fallback |
| ErrorMap.DeleteVolumeError | index.js:216-218 | not-found is 404 before invalid-data is 400 with the engine message; anything else is 500 |
| ErrorMap.DeleteVolumeIsUniform | index.js:245-247 | volume deletion and entry listing follow the uniform not-found/invalid-data/other policy exactly |
| ErrorMap.DeleteVolumeTestsNotFoundFirst | index.js:216-217 | an error that is both not-found and invalid-data is a 404 in volume deletion |
| ErrorMap.CancelDepartsOnNotFound | index.js:121-122 | cancel agrees with the uniform policy on errors that are not not-found, and a pure not-found error becomes 500 |
| ErrorMap.CreateAndRemoveDepartOnNotFound | index.js:198-199 | volume creation (and entry removal, index.js:228-229) agrees with the uniform policy on errors that are not not-found, and a pure not-found error becomes 500 |
| ErrorMap.HeadDepartsOnWording | index.js:260-261 | HEAD answers not-found with 404 and the engine's message (differing from the uniform "not found" whenever the message does), invalid-data alone with 500, and other errors uniformly |
| ErrorMap.SyncMutationDepartsOnFallback | index.js:59-60 | after mkdir (and copy/move, index.js:73-74, 87-88) a pure invalid-data error is answered uniformly; any error without invalid-data leaves the response unanswered, where the uniform policy always answers |
| ErrorMap.AddLookupDeparts | index.js:103-104 | the add volume lookup answers not-found with 400 "cannot find volume", invalid-data alone with 500, and other errors uniformly |
| Content.GetFileUnclassified | index.js:301 | GET of file content answers an engine error exactly as the uniform policy would iff the error carries neither flag |
| Operations.GetOperationUnclassified | index.js:131 | fetching an operation answers an engine error exactly as the uniform policy would iff the error carries neither flag |
| ErrorMap.GetVolumeDepartsOnInvalidData | index.js:207-208 | fetching a volume agrees with the uniform policy except that a pure invalid-data error becomes 500 |
| Volumes.ListVolumes | index.js:176-190 | the reply is 500 iff some volume's fetch fails or the walk reports an error; otherwise 200 listing every volume in order as volumeAsJson of its name and root size |
| Volumes.CreateVolumeReply | index.js:193-201 | for any non-nullish body (an array body has no name): a falsy name is 400 "name not defined"; otherwise success is 201 with an empty object, invalid-data 400 with the engine message, any other error 500 |
| Volumes.GetVolumeReply | index.js:204-210 | not-found is 404, any other error 500; otherwise 200 with the volume's name, root size and a URL naming it |
| Volumes.DeleteVolumeReply | index.js:213-220 | success is 204 "volume <name> deleted"; every error follows the uniform policy |
| Volumes.RemoveEntryReply | index.js:224-231 | success is 201 with an empty object; invalid-data is 400 with the engine message; any other error, not-found included, is 500 |
| Volumes.ListEntriesReply | index.js:234-249 | a walk error follows the uniform policy; otherwise 200 with one projection per listed entry, in order: each is entryAsJson of that entry's full path, URL and record, so its name is the basename of its path and its folder flag marks `fo` entries |
| EventStream.StreamHead | index.js:142-146 | the stream opens with 200, Content-Type text/event-stream, Cache-Control no-cache and Connection keep-alive |
| EventStream.Open | index.js:142-149 | a new connection starts with counter 0 and no frames, which is well numbered |
| EventStream.Emit | index.js:150-153 | emitting keeps every earlier frame, appends one frame carrying the current counter and the payload, advances the counter by one, and keeps the session well numbered |
| EventStream.EmitAppends | index.js:151-152 | the bytes on the wire after an emit are the earlier bytes followed by `id: n\n` and `data:payload\n\n` |
| EventStream.EmitAllNumbers | index.js:149-153 | after a run of emits the i-th new frame has id counter + i and the i-th payload, and the old frames are unchanged |
| EventStream.FreshSessionNumbering | index.js:149-153 | on a fresh connection the k-th emitted frame (from 0) carries id k and the k-th payload |
| EventStream.ParseRenderFrame | index.js:151-152 | a frame with a newline-free payload reads back as itself, leaving what follows untouched |
| EventStream.ParseWireRoundTrip | index.js:147-152 | everything a connection writes after its head reads back as exactly the frames emitted, in order |
| EventStream.FreshStreamReadsBack | index.js:147-153 | a fresh connection's stream reads back as frames with ids 0, 1, 2, ... carrying the payloads in emission order |
| Projection.VolumeAsJson | index.js:30-32 | the projection keeps the name and root size, and its URL names the same volume |
| Projection.VolumeUrlRoundTrip | index.js:31 | `/api/volumes/<name>/entries` reads back as the name |
| Projection.VolumeNameFromUrlSound | index.js:31 | any URL that reads as a volume name is that volume's URL |
| Projection.EmptyTestVolume | test/unit/api_test.js:27 | the empty volume "test" projects to url "/api/volumes/test/entries" and size 0 |
| Projection.HexDigest | index.js:36 | the digest is present iff the entry has one, and its hex text reads back as the digest bytes |
| Projection.UnhexHex | index.js:36 | hex text of any bytes reads back as those bytes |
| Projection.EntryAsJson | index.js:34-37 | folder is true iff the object type is "fo"; name is the path's basename and contains no slash; the digest is the hex text of the entry's digest, per HexDigest; the other fields are copied |
| Projection.BasenameOfJoin | index.js:35 | the basename of `dir/n` followed by any number of slashes is the segment n |
| Projection.BasenameOfSegment | index.js:35 | a path without slashes is its own basename |
| Projection.EntryNamedAfterLastSegment | index.js:35 | an entry listed at `dir/name` is projected with name `name` |
| Content.HeadReply | index.js:259-290 | not-found is 404 with the engine message, any other error 500, a missing entry 404; the reply has headers iff the entry is "fo" or "fl" (200, no body); any other object type is 500 |
| Content.CommonHeadersRead | index.js:264-270 | X-Created-time is the entry's ctime, X-Modified-time its mtime and X-Slick-base64 its reference text; Content-type is the entry's type or "x-slick/folder" when it has none; Content-length reads back as the size |
| Content.FolderHeadHeaders | index.js:273-278 | a folder's HEAD says X-Slick-type folder and carries a folder count that reads back as the entry count, with no Accept-Ranges |
| Content.FileHeadHeaders | index.js:280-285 | a file's HEAD says X-Slick-type file with Accept-Ranges bytes, and has no folder count |
| Content.GetFileReply | index.js:300-327 | any engine error, not-found included, is 500; a missing entry is 404; a folder is 400 "invalid target"; without a range header a file's reply is left unspecified iff it has no MIME type |
| Content.RangeResponse | index.js:313-324 | a refusal is sent as it is, whether or not the file has a type; an accepted range on a typed file is 206 with Content-Range, Accept-Ranges bytes, Content-Length and Content-Type in that order, and the window |
| Content.WholeFileReply | index.js:325-327 | without a range header a typed file gets 200 for the whole file, with Content-type set to its type and a Content-length that reads back as the size |
| Content.RangedReply | index.js:305-324 | on a file with a range header written as `bytes=first-last` or `bytes=first-` (other forms go through RangedReplyNegotiates): a refused range is 400 with or without a MIME type; an accepted range is 206 (unspecified only when the file has no type), with Content-Range naming the window and the size, Accept-Ranges bytes, Content-Length equal to the window length, Content-Type the file's type, and the window `[start, end + 1)` |
| Content.AcceptedRange | index.js:316-324 | an accepted range on a typed file is 206 with Content-Range reading back as first, effective end and size, Accept-Ranges bytes, Content-Length equal to the window length, Content-Type the file's type, and the window `[first, end + 1)` |
| Ranges.NegotiateFormatted | index.js:305-314 | a range request written as `bytes=first-last` or `bytes=first-` is negotiated on exactly that range |
| Content.RangedReplyNegotiates | index.js:305-324 | on a file, every non-empty range header, in any form, is answered by the response for that header's negotiation, so the header-text lemmas of `Ranges` describe the GET reply |
| Content.BareRangeServed | index.js:305-307 | a range header without the `bytes=` unit gets the same GET reply as the same range with it |
| Content.GetFileDoesNotClassify | index.js:301 | a not-found error is 500 in this handler, where the uniform policy would give 404 |

## Left out

- Express wiring is plumbing: routing, body parsing, static files, the CORS header, the 404 catch-all (index.js:17-28, 338-342) and `Server.prototype.run`.
- What Express does with a thrown TypeError is not modelled. The model stops at `Threw`.
- The storage engine is foreign code. `getVolume`, `create`, `destroy`, `list`, `remove`, `get`, `add`, `copy`, `move`, `mkdir` and the `operations` registry appear only as their results: an error with its flags, a size, an id, a record.
- Streaming is I/O: `rangeStream`, `eachBuffer`, piping and writing buffers. The model states which window, or the whole file, is asked for.
- The event stream's socket timeout and its snapshot step are left out (index.js:141, 155-169). The snapshot is fetched separately and races with the listener. Its error replies are written into an already-open stream. The listener's event-emitter semantics are concurrency. Payloads are opaque text.
- JSON serialisation is left out. `EventStream.ParseRenderFrame` and the stream round trips assume newline-free payloads, which `JSON.stringify` guarantees.
- JavaScript numbers are doubles, and the model uses unbounded integers. Digit strings beyond 2^53 and `String` of numbers at 1e21 or more are not modelled.
- Request bodies use integer numbers only.
- The range header is read as `split("-")` reads it: `bytes=5`, `bytes=5-` and `bytes=5--9` all run to the end of the file, and `bytes=5-9-3` ignores the third piece. A piece that is not a plain digit string is not modelled, because `parseInt` gives `NaN` or reads a prefix of it; `bytes=-500`, `bytes=a-9` and `bytes=5-9x` are examples. Such headers are the explicit `Unparsed` outcome, and a GET reply on one is `Unspecified`.
- Operation ids are natural numbers. A `:id` path parameter that `parseInt` reads as negative (`-3`, index.js:118, 128) or as `NaN` (`abc`) is not modelled; the handler would ask the registry for it and build URLs such as `/api/operations/-3/events`.
- A file entry without a MIME type on `GET` is `Unspecified` only where the handler would write that type as a header value: the 206 (index.js:316-321) and the whole-file 200 (index.js:326). Node refuses an undefined header value. A refused range is still a 400, because it is sent before any header is written.
- The `X-Slick-base64` value comes from the engine's own `toBuffer`. It is an input text. `ctime`/`mtime` are opaque text.
- Entry URLs in listings are built with `path.join` and `url.format` on the request URL (index.js:240-242). They are inputs to `ListEntriesReply`.
- `Js.Prop` reads own properties of parsed JSON only, not inherited ones such as `constructor`. `Js.ToStr` of an object is always `[object Object]`.
- The unit tests and their helper need the filesystem and the real engine. Only the empty-volume projection (test/unit/api_test.js:27) is restated.

=== FILE: content.dfy ===
/**
  Content delivery (index.js:256-336): `HEAD` metadata for a file or folder,
  and `GET` of a file's bytes, whole or as one range. The engine's `get` is
  foreign; its outcome is a parameter. The bytes themselves are streamed by
  the engine, so the model describes which bytes are asked for.
 */
module Content {
  import opened Wrappers
  import opened Decimal
  import opened Strings
  import opened Http
  import opened ErrorMap
  import opened Projection
  import opened Ranges

  /** The outcome of the engine's `get` for a path. */
  datatype Lookup = Failed(error: EngineError) | Missing | Found(entry: Entry)

  /** `entry.type || 'x-slick/folder'`. */
  function ContentTypeOf(e: Entry): (t: string)
    ensures e.mimeType.Some? && e.mimeType.value != "" ==> t == e.mimeType.value
    ensures e.mimeType.None? || e.mimeType.value == "" ==> t == "x-slick/folder"
  {
    if e.mimeType.Some? && e.mimeType.value != "" then e.mimeType.value else "x-slick/folder"
  }

  /** The headers every successful `HEAD` carries, in the order the handler lists them. */
  function CommonHeaders(e: Entry): Headers {
    [("X-Created-time", e.ctime), ("X-Modified-time", e.mtime), ("X-Slick-base64", e.reference64),
     ("Content-length", NatToString(e.size)), ("Content-type", ContentTypeOf(e))]
  }

  function FolderHeaders(e: Entry): Headers {
    CommonHeaders(e) + [("X-Slick-type", "folder"), ("X-Slick-folder-count", NatToString(e.folderCount))]
  }

  function FileHeaders(e: Entry): Headers {
    CommonHeaders(e) + [("Accept-Ranges", "bytes"), ("X-Slick-type", "file")]
  }

  /**
    `HEAD /volumes/:name/file[/<path>]`: a not-found error is 404 with the
    engine's message, any other error 500; a missing entry is 404; a folder
    (`fo`) or a file (`fl`) is 200 with its headers and no body; any other
    object type is 500 with an empty body.
   */
  function HeadReply(lookup: Lookup): (r: Response<()>)
    ensures lookup.Failed? && lookup.error.isNotFound ==> r == Text(404, lookup.error.message)
    ensures lookup.Failed? && !lookup.error.isNotFound ==> r == Text(500, "fatal error")
    ensures lookup.Missing? ==> r == Text(404, "not found")
    ensures r.Headed? <==> lookup.Found? && lookup.entry.objectType in {FolderType, FileType}
    ensures lookup.Found? && lookup.entry.objectType !in {FolderType, FileType} ==> r == Text(500, "")
    ensures r.Headed? ==> r.status == 200 && r.body == NoBody
  {
    match lookup
    case Failed(e) => OneRuleError(HeadRules[0], Fatal(), e)
    case Missing => Text(404, "not found")
    case Found(e) =>
      if e.objectType == FolderType then Headed(200, FolderHeaders(e), NoBody)
      else if e.objectType == FileType then Headed(200, FileHeaders(e), NoBody)
      else Text(500, "")
  }

  /**
    The headers every successful `HEAD` carries: the creation time, the
    modification time and the base64 reference as the entry holds them, the
    type with its fallback, and a length that reads back as the size.
   */
  lemma CommonHeadersRead(e: Entry, extra: Headers)
    ensures var h := CommonHeaders(e) + extra;
      && HasHeader(h, "X-Created-time") && HeaderValue(h, "X-Created-time") == e.ctime
      && HasHeader(h, "X-Modified-time") && HeaderValue(h, "X-Modified-time") == e.mtime
      && HasHeader(h, "X-Slick-base64") && HeaderValue(h, "X-Slick-base64") == e.reference64
      && HasHeader(h, "Content-type") && HeaderValue(h, "Content-type") == ContentTypeOf(e)
      && HasHeader(h, "Content-length") && ReadNat(HeaderValue(h, "Content-length")) == Some(e.size)
  {
    var h := CommonHeaders(e) + extra;
    assert h[0] == ("X-Created-time", e.ctime);
    assert h[1] == ("X-Modified-time", e.mtime);
    assert h[2] == ("X-Slick-base64", e.reference64);
    HeaderAt(h, 0);
    HeaderAt(h, 1);
    HeaderAt(h, 2);
    assert h[3] == ("Content-length", NatToString(e.size));
    assert h[4] == ("Content-type", ContentTypeOf(e));
    HeaderAt(h, 3);
    HeaderAt(h, 4);
    ReadNatToString(e.size);
  }

  /** A folder's `HEAD` says `folder`, carries its entry count, and does not offer ranges. */
  lemma FolderHeadHeaders(e: Entry)
    requires e.objectType == FolderType
    ensures var h := HeadReply(Found(e)).headers;
      && h == FolderHeaders(e)
      && HasHeader(h, "X-Slick-type") && HeaderValue(h, "X-Slick-type") == "folder"
      && HasHeader(h, "X-Slick-folder-count") && ReadNat(HeaderValue(h, "X-Slick-folder-count")) == Some(e.folderCount)
      && !HasHeader(h, "Accept-Ranges")
  {
    var h := FolderHeaders(e);
    assert h[5] == ("X-Slick-type", "folder");
    assert h[6] == ("X-Slick-folder-count", NatToString(e.folderCount));
    HeaderAt(h, 5);
    HeaderAt(h, 6);
    ReadNatToString(e.folderCount);
    assert forall j :: 0 <= j < |h| ==> h[j].0 != "Accept-Ranges";
  }

  /** A file's `HEAD` says `file` and offers byte ranges, and carries no entry count. */
  lemma FileHeadHeaders(e: Entry)
    requires e.objectType == FileType
    ensures var h := HeadReply(Found(e)).headers;
      && h == FileHeaders(e)
      && HasHeader(h, "X-Slick-type") && HeaderValue(h, "X-Slick-type") == "file"
      && HasHeader(h, "Accept-Ranges") && HeaderValue(h, "Accept-Ranges") == "bytes"
      && !HasHeader(h, "X-Slick-folder-count")
  {
    var h := FileHeaders(e);
    assert h[5] == ("Accept-Ranges", "bytes");
    assert h[6] == ("X-Slick-type", "file");
    HeaderAt(h, 5);
    HeaderAt(h, 6);
    assert forall j :: 0 <= j < |h| ==> h[j].0 != "X-Slick-folder-count";
  }

  /** The outcome of a `GET` of file content, or `Unspecified` where the handler's input leaves the model. */
  datatype FileReply = Reply(response: Response<()>) | Unspecified

  /**
    `GET /volumes/:name/file/<path>`. Any engine error is 500, not-found
    included (this handler does not classify); a missing entry is 404 and a
    folder 400 "invalid target". With a non-empty range header the range is
    negotiated; without one the whole file is sent with its type and length.
    A header outside the modelled range syntax is `Unspecified`, and so is a
    reply that would have to write a file's missing MIME type as a header
    value (the 206 and the whole-file 200); a refused range never gets that far.
   */
  function GetFileReply(lookup: Lookup, range: Option<string>): (r: FileReply)
    ensures lookup.Failed? ==> r == Reply(Text(500, "fatal error"))
    ensures lookup.Missing? ==> r == Reply(Text(404, "not found"))
    ensures lookup.Found? && lookup.entry.objectType == FolderType ==> r == Reply(Text(400, "invalid target"))
    ensures lookup.Found? && lookup.entry.objectType != FolderType && (range.None? || range.value == "") ==>
              (r.Unspecified? <==> lookup.entry.mimeType.None?)
  {
    match lookup
    case Failed(_) => Reply(Fatal())
    case Missing => Reply(Text(404, "not found"))
    case Found(f) =>
      if f.objectType == FolderType then Reply(Text(400, "invalid target"))
      else if range.Some? && range.value != "" then
        RangeResponse(NegotiateHeader(range.value, f.size), f.mimeType)
      else if f.mimeType.None? then Unspecified
      else
        Reply(Headed(200, [("Content-type", f.mimeType.value), ("Content-length", NatToString(f.size))], WholeFile))
  }

  /**
    The reply for a negotiated range: the refusal as it is, or 206 with the
    range headers and the window, which needs the file's MIME type.
   */
  function RangeResponse(n: Negotiation, mimeType: Option<string>): (r: FileReply)
    ensures r.Unspecified? <==> n.Unparsed? || (n.Partial? && mimeType.None?)
    ensures n.Refused? ==> r == Reply(Text(n.status, n.message))
    ensures n.Partial? && mimeType.Some? ==>
      && r.Reply? && r.response.Headed? && r.response.status == n.status && |r.response.headers| == 4
      && r.response.headers[0] == ("Content-Range", n.contentRange)
      && r.response.headers[1] == ("Accept-Ranges", "bytes")
      && r.response.headers[2] == ("Content-Length", NatToString(n.contentLength))
      && r.response.headers[3] == ("Content-Type", mimeType.value)
      && r.response.body == Window(n.from, n.until)
  {
    match n
    case Unparsed => Unspecified
    case Refused(status, message) => Reply(Text(status, message))
    case Partial(status, start, end, contentRange, contentLength, from, until) =>
      if mimeType.None? then Unspecified
      else
        Reply(Headed(status,
                     [("Content-Range", contentRange), ("Accept-Ranges", "bytes"),
                      ("Content-Length", NatToString(contentLength)), ("Content-Type", mimeType.value)],
                     Window(from, until)))
  }

  /** Without a range header a file with a MIME type is sent whole, typed, with a length that reads back as its size. */
  lemma WholeFileReply(f: Entry, range: Option<string>)
    requires f.objectType != FolderType && f.mimeType.Some? && (range.None? || range.value == "")
    ensures var r := GetFileReply(Found(f), range);
      && r.Reply? && r.response.Headed? && r.response.status == 200 && r.response.body == WholeFile
      && |r.response.headers| == 2
      && r.response.headers[0] == ("Content-type", f.mimeType.value)
      && ReadNat(r.response.headers[1].1) == Some(f.size) && r.response.headers[1].0 == "Content-length"
  {
    ReadNatToString(f.size);
  }

  /**
    With a well-formed range header on a file (not a folder) the reply is 400
    when the range is refused, with or without a MIME type. An accepted range
    on a typed file is 206: `Content-Range` names the window and the file
    size, ranges are offered, the type is the file's, and the requested stream
    window `[from, until)` is as long as `Content-Length` says.
   */
  lemma RangedReply(f: Entry, spec: RangeSpec)
    requires f.objectType != FolderType
    ensures var r := GetFileReply(Found(f), Some(FormatRangeHeader(spec)));
      && (r.Unspecified? <==> spec.first < EffectiveEnd(spec, f.size) <= f.size && f.mimeType.None?)
      && (r.Reply? ==> (r.response.Headed? <==> spec.first < EffectiveEnd(spec, f.size) <= f.size))
      && (r.Reply? && !r.response.Headed? ==> r.response.Text? && r.response.status == 400)
      && (r.Reply? && r.response.Headed? ==> AcceptedRangeReply(r.response, f, spec))
  {
    var h := FormatRangeHeader(spec);
    assert h != "" by { assert h[0] == 'b'; }
    RangedReplyNegotiates(f, h);
    NegotiateFormatted(spec, f.size);
    if spec.first < EffectiveEnd(spec, f.size) <= f.size && f.mimeType.Some? {
      AcceptedRange(f, spec);
    }
  }

  /**
    A 206 for `spec` on file `f`: `Content-Range` names the window and the
    file size, ranges are offered, `Content-Length` is the window's length,
    the type is the file's, and the window is `[first, end + 1)`.
   */
  predicate AcceptedRangeReply(resp: Response<()>, f: Entry, spec: RangeSpec) {
    && resp.Headed?
    && resp.status == 206
    && |resp.headers| == 4
    && resp.headers[0].0 == "Content-Range"
    && ParseContentRange(resp.headers[0].1) == Some((spec.first, EffectiveEnd(spec, f.size), f.size))
    && resp.headers[1] == ("Accept-Ranges", "bytes")
    && resp.headers[2].0 == "Content-Length"
    && resp.body.Window?
    && ReadNat(resp.headers[2].1) == Some(resp.body.until - resp.body.from)
    && f.mimeType.Some? && resp.headers[3] == ("Content-Type", f.mimeType.value)
    && resp.body == Window(spec.first, EffectiveEnd(spec, f.size) + 1)
  }

  /** An accepted range on a typed file gets the full 206. */
  lemma AcceptedRange(f: Entry, spec: RangeSpec)
    requires f.mimeType.Some? && Negotiate(spec, f.size).Partial?
    ensures var r := RangeResponse(Negotiate(spec, f.size), f.mimeType);
      r.Reply? && AcceptedRangeReply(r.response, f, spec)
  {
    var n := Negotiate(spec, f.size);
    var e := EffectiveEnd(spec, f.size);
    assert n.status == 206 && n.from == spec.first && n.until == e + 1 && n.contentLength == n.until - n.from;
    assert ReadNat(NatToString(n.contentLength)) == Some(n.until - n.from) by {
      ReadNatToString(n.contentLength);
    }
    assert ParseContentRange(n.contentRange) == Some((spec.first, e, f.size)) by {
      ContentRangeNamesWindow(spec, f.size);
    }
    PartialResponse(n, f, spec);
  }

  /** The 206 built from a negotiation that describes `spec` on `f`. */
  lemma PartialResponse(n: Negotiation, f: Entry, spec: RangeSpec)
    requires f.mimeType.Some? && n.Partial? && n.status == 206
    requires n.from == spec.first && n.until == EffectiveEnd(spec, f.size) + 1
    requires ReadNat(NatToString(n.contentLength)) == Some(n.until - n.from)
    requires ParseContentRange(n.contentRange) == Some((spec.first, EffectiveEnd(spec, f.size), f.size))
    ensures var r := RangeResponse(n, f.mimeType);
      r.Reply? && AcceptedRangeReply(r.response, f, spec)
  {
  }

  /**
    On a file, any non-empty range header is answered by negotiating that very
    header, so what `NegotiateHeaderText`, `NoDashIsOpenEnded` and
    `UnitIsOptional` say about header texts holds for the `GET` reply too.
   */
  lemma RangedReplyNegotiates(f: Entry, h: string)
    requires f.objectType != FolderType && h != ""
    ensures GetFileReply(Found(f), Some(h)) == RangeResponse(NegotiateHeader(h, f.size), f.mimeType)
  {
  }

  /** A range header without the `bytes=` unit gets the same reply as the same range with it. */
  lemma BareRangeServed(f: Entry, spec: RangeSpec)
    requires f.objectType != FolderType
    ensures GetFileReply(Found(f), Some(RangeBody(spec))) == GetFileReply(Found(f), Some(FormatRangeHeader(spec)))
  {
    var bare, full := RangeBody(spec), FormatRangeHeader(spec);
    assert bare != "" by { assert |NatToString(spec.first)| >= 1; assert |bare| >= 1; }
    assert full != "" by { assert full[0] == 'b'; }
    RangedReplyNegotiates(f, bare);
    RangedReplyNegotiates(f, full);
    UnitIsOptional(spec);
    ParseFormatRangeHeader(spec);
  }

  /** `GET` of file content answers the uniform reply to an engine error exactly when the error carries neither flag. */
  lemma GetFileUnclassified(e: EngineError, range: Option<string>)
    ensures GetFileReply(Failed(e), range) == Reply(Uniform(e)) <==> !e.isNotFound && !e.isInvalidData
  {
    UnclassifiedDeparts<()>(e);
  }

  /** This handler turns a not-found error into a 500, where the uniform policy would say 404. */
  lemma GetFileDoesNotClassify(e: EngineError, range: Option<string>)
    requires e.isNotFound
    ensures GetFileReply(Failed(e), range) == Reply(Text(500, "fatal error"))
    ensures Uniform<()>(e) == Text(404, "not found")
  {
  }
}

=== FILE: decimal.dfy ===
/**
  Decimal text of natural numbers: what JavaScript's `String(n)` produces for a
  non-negative integer, and what `parseInt(s, 10)` reads back from a string of
  ASCII digits.
 */
module Decimal {

  predicate IsDigit(c: char) {
    '0' <= c <= '9'
  }

  predicate AllDigits(s: string) {
    forall i :: 0 <= i < |s| ==> IsDigit(s[i])
  }

  function DigitChar(d: nat): (c: char)
    requires d < 10
    ensures IsDigit(c)
  {
    ('0' as int + d) as char
  }

  function DigitValue(c: char): (d: nat)
    requires IsDigit(c)
    ensures d < 10 && DigitChar(d) == c
  {
    c as int - '0' as int
  }

  /** The shortest decimal spelling of `n`: digits only, no leading zero. */
  function NatToString(n: nat): (s: string)
    ensures |s| >= 1 && AllDigits(s)
    ensures s[0] == '0' <==> n == 0
    ensures n < 10 <==> |s| == 1
    decreases n
  {
    if n < 10 then [DigitChar(n)] else NatToString(n / 10) + [DigitChar(n % 10)]
  }

  /** The number a digit string denotes (`parseInt(s, 10)` on digits only). */
  function Value(s: string): nat
    requires AllDigits(s)
    decreases |s|
  {
    if s == [] then 0 else Value(s[..|s| - 1]) * 10 + DigitValue(s[|s| - 1])
  }

  /** `String(i)` for any integer: a minus sign before the magnitude. */
  function IntToString(i: int): (s: string)
    ensures i >= 0 ==> s == NatToString(i)
    ensures i < 0 ==> |s| >= 2 && s[0] == '-' && s[1..] == NatToString(-i)
  {
    if i < 0 then "-" + NatToString(-i) else NatToString(i)
  }

  /** Reading back what was written gives the number again. */
  lemma {:induction false} ValueOfNatToString(n: nat)
    ensures Value(NatToString(n)) == n
    decreases n
  {
    if n >= 10 {
      var s := NatToString(n);
      var p := NatToString(n / 10);
      assert s == p + [DigitChar(n % 10)];
      assert s[..|s| - 1] == p;
      ValueOfNatToString(n / 10);
    }
  }

  /** A digit string in the shortest spelling: non-empty, and no leading zero unless it is `0` itself. */
  predicate Canonical(s: string) {
    |s| >= 1 && AllDigits(s) && (|s| > 1 ==> s[0] != '0')
  }

  /** What `String(n)` writes is canonical. */
  lemma NatToStringCanonical(n: nat)
    ensures Canonical(NatToString(n))
  {
  }

  /** A digit string without a leading zero is the spelling of its value. */
  lemma {:induction false} NatToStringOfValue(s: string)
    requires |s| >= 1 && AllDigits(s)
    requires |s| > 1 ==> s[0] != '0'
    ensures NatToString(Value(s)) == s
    decreases |s|
  {
    if |s| == 1 {
      assert Value(s) == Value([]) * 10 + DigitValue(s[0]);
    } else {
      var p := s[..|s| - 1];
      assert AllDigits(p);
      assert p[0] == s[0];
      NatToStringOfValue(p);
      ValuePositive(p);
      var v := Value(s);
      assert v == Value(p) * 10 + DigitValue(s[|s| - 1]);
      assert v / 10 == Value(p) && v % 10 == DigitValue(s[|s| - 1]);
      assert s == p + [s[|s| - 1]];
    }
  }

  /** A digit string that starts with a non-zero digit denotes a positive number. */
  lemma {:induction false} ValuePositive(s: string)
    requires |s| >= 1 && AllDigits(s) && s[0] != '0'
    ensures Value(s) >= 1
    decreases |s|
  {
    if |s| > 1 {
      var p := s[..|s| - 1];
      assert p[0] == s[0];
      ValuePositive(p);
    }
  }
}

=== FILE: errors.dfy ===
/**
  How each route handler turns an engine error into an HTTP reply. Every handler
  in the gateway is written as a chain of `if (err && err.isX) return ...` tests
  ending in a catch-all; here a chain is a list of rules tried in order, the
  first whose flag the error carries deciding the reply.
 */
module ErrorMap {
  import opened Http

  /** The error flag a rule tests. */
  datatype Kind = NotFound | InvalidData

  /** The text of a rule's reply: a fixed string or the engine's own message. */
  datatype Wording = Fixed(text: string) | EngineMessage

  datatype Rule = Rule(kind: Kind, status: nat, wording: Wording)

  predicate Has(e: EngineError, k: Kind) {
    match k
    case NotFound => e.isNotFound
    case InvalidData => e.isInvalidData
  }

  /** No rule of `rules` applies to `e`. */
  predicate Unmatched(rules: seq<Rule>, e: EngineError) {
    forall j :: 0 <= j < |rules| ==> !Has(e, rules[j].kind)
  }

  function RuleReply<T>(rule: Rule, e: EngineError): Response<T> {
    match rule.wording
    case Fixed(t) => Text(rule.status, t)
    case EngineMessage => Text(rule.status, e.message)
  }

  /** The reply of the first rule that applies to `e`, or `fallback` when none does. */
  function MapError<T>(rules: seq<Rule>, fallback: Response<T>, e: EngineError): (r: Response<T>)
    ensures forall i :: 0 <= i < |rules| && Has(e, rules[i].kind) && Unmatched(rules[..i], e) ==>
              r == RuleReply(rules[i], e)
    ensures Unmatched(rules, e) ==> r == fallback
    decreases |rules|
  {
    if rules == [] then fallback
    else if Has(e, rules[0].kind) then RuleReply(rules[0], e)
    else
      var r := MapError(rules[1..], fallback, e);
      assert forall i :: 1 <= i < |rules| ==> rules[1..][i - 1] == rules[i] && rules[1..][..i - 1] == rules[1..i];
      r
  }

  /** The generic 500 reply. */
  function Fatal<T>(): Response<T> {
    Text(FatalStatus, FatalText)
  }

  /**
    The uniform policy most handlers follow: not-found is 404,
    invalid-data is 400 with the engine's message, anything else is 500. It is
    the yardstick the handlers are compared against below.
   */
  function Uniform<T>(e: EngineError): Response<T> {
    if e.isNotFound then Text(404, "not found")
    else if e.isInvalidData then Text(400, e.message)
    else Fatal()
  }

  // The rule chains as each handler writes them.

  /** `DELETE /operations/:id`: invalid-data is 400, anything else 500. */
  const CancelRules := [Rule(InvalidData, 400, EngineMessage)]
  /** `GET /volumes/:name`: not-found is 404, anything else 500. */
  const GetVolumeRules := [Rule(NotFound, 404, Fixed("not found"))]
  /** `DELETE /volumes/:name`: not-found before invalid-data. */
  const DeleteVolumeRules := [Rule(NotFound, 404, Fixed("not found")), Rule(InvalidData, 400, EngineMessage)]
  /** `POST /volumes`: invalid-data is 400, anything else 500. */
  const CreateVolumeRules := [Rule(InvalidData, 400, EngineMessage)]
  /** `DELETE /volumes/:name/entries/<path>`: invalid-data is 400, anything else 500. */
  const RemoveEntryRules := [Rule(InvalidData, 400, EngineMessage)]
  /** `GET /volumes/:name/entries[/<path>]`: not-found before invalid-data. */
  const ListEntriesRules := [Rule(NotFound, 404, Fixed("not found")), Rule(InvalidData, 400, EngineMessage)]
  /** `HEAD /volumes/:name/file[/<path>]`: not-found is 404 with the engine's message. */
  const HeadRules := [Rule(NotFound, 404, EngineMessage)]
  /** `POST /operations` with `mkdir`/`copy`/`move`: invalid-data is 400; the fallback never ends the response. */
  const SyncMutationRules := [Rule(InvalidData, 400, EngineMessage)]
  /** `POST /operations` with `add`, volume lookup: a missing volume is a 400. */
  const AddVolumeRules := [Rule(NotFound, 400, Fixed("cannot find volume"))]

  /** The reply `DELETE /volumes/:name` sends for an engine error. */
  function DeleteVolumeError<T>(e: EngineError): (r: Response<T>)
    ensures e.isNotFound ==> r == Text(404, "not found")
    ensures !e.isNotFound && e.isInvalidData ==> r == Text(400, e.message)
    ensures !e.isNotFound && !e.isInvalidData ==> r == Text(500, "fatal error")
  {
    assert DeleteVolumeRules[..1] == [DeleteVolumeRules[0]];
    MapError(DeleteVolumeRules, Fatal(), e)
  }

  /** The reply a handler with a single `rule` before the catch-all sends. */
  function OneRuleError<T>(rule: Rule, fallback: Response<T>, e: EngineError): (r: Response<T>)
    ensures Has(e, rule.kind) ==> r == RuleReply(rule, e)
    ensures !Has(e, rule.kind) ==> r == fallback
  {
    assert [rule][..0] == [];
    MapError([rule], fallback, e)
  }

  /** The reply `GET /volumes/:name/entries` sends for an engine error: the same chain as volume deletion. */
  function ListEntriesError<T>(e: EngineError): (r: Response<T>)
    ensures r == DeleteVolumeError(e)
  {
    MapError(ListEntriesRules, Fatal(), e)
  }

  /** Volume deletion and entry listing follow the uniform policy exactly. */
  lemma DeleteVolumeIsUniform<T>(e: EngineError)
    ensures DeleteVolumeError<T>(e) == Uniform<T>(e)
    ensures ListEntriesError<T>(e) == Uniform<T>(e)
  {
  }

  /** An error flagged both not-found and invalid-data is a 404 in volume deletion: the not-found test comes first. */
  lemma DeleteVolumeTestsNotFoundFirst<T>(m: string)
    ensures DeleteVolumeError<T>(EngineError(true, true, m)) == Text(404, "not found")
  {
  }

  /** Cancelling agrees with the uniform policy except that a not-found error becomes a 500 (or a 400 if also invalid-data). */
  lemma CancelDepartsOnNotFound<T>(e: EngineError)
    ensures !e.isNotFound ==> OneRuleError<T>(CancelRules[0], Fatal(), e) == Uniform<T>(e)
    ensures e.isNotFound && !e.isInvalidData ==> OneRuleError<T>(CancelRules[0], Fatal(), e) == Text(500, "fatal error")
  {
  }

  /** Fetching a volume agrees with the uniform policy except that invalid-data becomes a 500. */
  lemma GetVolumeDepartsOnInvalidData<T>(e: EngineError)
    ensures !(e.isInvalidData && !e.isNotFound) ==> OneRuleError<T>(GetVolumeRules[0], Fatal(), e) == Uniform<T>(e)
    ensures e.isInvalidData && !e.isNotFound ==> OneRuleError<T>(GetVolumeRules[0], Fatal(), e) == Text(500, "fatal error")
  {
  }

  /** Creating a volume and removing an entry agree with the uniform policy except that a not-found error becomes a 500. */
  lemma CreateAndRemoveDepartOnNotFound<T>(e: EngineError)
    ensures !e.isNotFound ==> OneRuleError<T>(CreateVolumeRules[0], Fatal(), e) == Uniform<T>(e)
    ensures !e.isNotFound ==> OneRuleError<T>(RemoveEntryRules[0], Fatal(), e) == Uniform<T>(e)
    ensures e.isNotFound && !e.isInvalidData ==> OneRuleError<T>(CreateVolumeRules[0], Fatal(), e) == Text(500, "fatal error")
    ensures e.isNotFound && !e.isInvalidData ==> OneRuleError<T>(RemoveEntryRules[0], Fatal(), e) == Text(500, "fatal error")
  {
  }

  /**
    `HEAD` answers not-found with the engine's own message rather than "not
    found", and an invalid-data error with 500; other errors are uniform.
   */
  lemma HeadDepartsOnWording<T>(e: EngineError)
    ensures e.isNotFound ==> OneRuleError<T>(HeadRules[0], Fatal(), e) == Text(404, e.message)
    ensures e.isNotFound && e.message != "not found" ==> OneRuleError<T>(HeadRules[0], Fatal(), e) != Uniform<T>(e)
    ensures !e.isNotFound && e.isInvalidData ==> OneRuleError<T>(HeadRules[0], Fatal(), e) == Text(500, "fatal error")
    ensures !e.isNotFound && !e.isInvalidData ==> OneRuleError<T>(HeadRules[0], Fatal(), e) == Uniform<T>(e)
  {
  }

  /**
    After `mkdir`, `copy` or `move`, an invalid-data error that is not also
    not-found is answered as the uniform policy says; any other error leaves the
    response unanswered, where the uniform policy always answers.
   */
  lemma SyncMutationDepartsOnFallback<T>(e: EngineError)
    ensures e.isInvalidData && !e.isNotFound ==> OneRuleError<T>(SyncMutationRules[0], Unanswered(500), e) == Uniform<T>(e)
    ensures !e.isInvalidData ==> OneRuleError<T>(SyncMutationRules[0], Unanswered(500), e) == Unanswered(500)
    ensures Uniform<T>(e).Text?
  {
  }

  /**
    The `add` volume lookup answers a missing volume with 400 "cannot find
    volume" rather than 404, and an invalid-data error with 500; other errors
    are uniform.
   */
  lemma AddLookupDeparts<T>(e: EngineError)
    ensures e.isNotFound ==> OneRuleError<T>(AddVolumeRules[0], Fatal(), e) == Text(400, "cannot find volume")
    ensures !e.isNotFound && e.isInvalidData ==> OneRuleError<T>(AddVolumeRules[0], Fatal(), e) == Text(500, "fatal error")
    ensures !e.isNotFound && !e.isInvalidData ==> OneRuleError<T>(AddVolumeRules[0], Fatal(), e) == Uniform<T>(e)
  {
  }

  /**
    The 500 that handlers classifying nothing send (`GET /volumes`,
    `GET /operations`, fetching an operation, starting an `add`, `GET` of
    file content) is the uniform reply exactly on errors that carry neither flag.
   */
  lemma UnclassifiedDeparts<T>(e: EngineError)
    ensures Fatal<T>() == Uniform<T>(e) <==> !e.isNotFound && !e.isInvalidData
  {
  }
}

=== FILE: events.dfy ===
/**
  The per-connection event stream of `GET /operations/:id/events`
  (index.js:140-153), in the event-stream format of section 9.2 of the HTML
  Living Standard. A session is the connection's event counter together with
  the frames written so far; every `emit` writes an `id:` line carrying the
  counter, a `data:` line carrying the payload and a blank line, and then
  advances the counter.
 */
module EventStream {
  import opened Wrappers
  import opened Decimal
  import opened Strings
  import opened Http

  /** The response head written when the stream opens. */
  const StreamStatus: nat := 200
  const StreamHeaders: Headers :=
    [("Content-Type", "text/event-stream"), ("Cache-Control", "no-cache"), ("Connection", "keep-alive")]

  /** The single newline written right after the head, before any frame. */
  const Preamble := "\n"

  /** One emitted event: its sequence number and its serialised payload. */
  datatype Frame = Frame(id: nat, data: string)

  /** One connection: the next sequence number and the frames written, oldest first. */
  datatype Session = Session(eventId: nat, frames: seq<Frame>)

  /** The k-th frame carries id k, and the counter is the number of frames written. */
  predicate WellNumbered(s: Session) {
    && s.eventId == |s.frames|
    && forall k :: 0 <= k < |s.frames| ==> s.frames[k].id == k
  }

  /** The stream opens with 200 and announces an uncached event stream on a kept-alive connection. */
  lemma StreamHead()
    ensures StreamStatus == 200
    ensures HasHeader(StreamHeaders, "Content-Type") && HeaderValue(StreamHeaders, "Content-Type") == "text/event-stream"
    ensures HasHeader(StreamHeaders, "Cache-Control") && HeaderValue(StreamHeaders, "Cache-Control") == "no-cache"
    ensures HasHeader(StreamHeaders, "Connection") && HeaderValue(StreamHeaders, "Connection") == "keep-alive"
  {
    HeaderAt(StreamHeaders, 0);
    HeaderAt(StreamHeaders, 1);
    HeaderAt(StreamHeaders, 2);
  }

  /** A fresh connection: the counter starts at zero and nothing has been emitted. */
  function Open(): (s: Session)
    ensures WellNumbered(s) && s.frames == []
  {
    Session(0, [])
  }

  /** `emit(body)`: write one frame numbered with the counter, then advance the counter. */
  function Emit(s: Session, payload: string): (t: Session)
    ensures |t.frames| == |s.frames| + 1 && t.frames[..|s.frames|] == s.frames
    ensures t.frames[|s.frames|] == Frame(s.eventId, payload)
    ensures t.eventId == s.eventId + 1
    ensures WellNumbered(s) ==> WellNumbered(t)
  {
    Session(s.eventId + 1, s.frames + [Frame(s.eventId, payload)])
  }

  /** `id: n\n` then `data:payload\n\n`. */
  function RenderFrame(f: Frame): string {
    "id: " + NatToString(f.id) + "\n" + "data:" + f.data + "\n\n"
  }

  function RenderFrames(fs: seq<Frame>): string
    decreases |fs|
  {
    if fs == [] then "" else RenderFrames(fs[..|fs| - 1]) + RenderFrame(fs[|fs| - 1])
  }

  /** Everything the connection has written after the response head. */
  function Wire(s: Session): string {
    Preamble + RenderFrames(s.frames)
  }

  /** Emitting only appends: what was already written is left as it was. */
  lemma EmitAppends(s: Session, payload: string)
    ensures Wire(Emit(s, payload)) == Wire(s) + RenderFrame(Frame(s.eventId, payload))
  {
    var t := Emit(s, payload);
    assert t.frames[..|t.frames| - 1] == s.frames;
  }

  /** Emitting each payload in turn. */
  function EmitAll(s: Session, payloads: seq<string>): Session
    decreases |payloads|
  {
    if payloads == [] then s else EmitAll(Emit(s, payloads[0]), payloads[1..])
  }

  /**
    After a run of emits the new frames follow the old ones, the i-th new frame
    carries the i-th payload under id `eventId + i`, and the counter has moved
    on by the number of emits.
   */
  lemma {:induction false} EmitAllNumbers(s: Session, payloads: seq<string>)
    ensures var t := EmitAll(s, payloads);
      && |t.frames| == |s.frames| + |payloads|
      && t.frames[..|s.frames|] == s.frames
      && t.eventId == s.eventId + |payloads|
      && forall i :: 0 <= i < |payloads| ==> t.frames[|s.frames| + i] == Frame(s.eventId + i, payloads[i])
    decreases |payloads|
  {
    if payloads != [] {
      var s1 := Emit(s, payloads[0]);
      EmitAllNumbers(s1, payloads[1..]);
      var t := EmitAll(s, payloads);
      assert t == EmitAll(s1, payloads[1..]);
      forall i | 0 <= i < |payloads|
        ensures t.frames[|s.frames| + i] == Frame(s.eventId + i, payloads[i])
      {
        if i == 0 {
          assert t.frames[..|s1.frames|][|s.frames|] == s1.frames[|s.frames|];
        } else {
          assert payloads[1..][i - 1] == payloads[i];
        }
      }
      assert t.frames[..|s.frames|] == t.frames[..|s1.frames|][..|s.frames|];
    }
  }

  /** On a fresh connection the k-th emitted frame (from zero) carries id k and the k-th payload. */
  lemma FreshSessionNumbering(payloads: seq<string>)
    ensures var t := EmitAll(Open(), payloads);
      && |t.frames| == |payloads| && WellNumbered(t)
      && forall k :: 0 <= k < |payloads| ==> t.frames[k] == Frame(k, payloads[k])
  {
    var s0 := Open();
    var t := EmitAll(s0, payloads);
    EmitAllNumbers(s0, payloads);
    assert |s0.frames| == 0 && s0.eventId == 0;
    forall k | 0 <= k < |payloads|
      ensures t.frames[k] == Frame(k, payloads[k])
    {
      assert t.frames[|s0.frames| + k] == Frame(s0.eventId + k, payloads[k]);
    }
  }

  // ---- reading the stream back ----

  /** Reads one frame off the front of `w`, returning it and the text after it. */
  function ParseFrame(w: string): (r: Option<(Frame, string)>)
    ensures r.Some? ==> |r.value.1| < |w|
  {
    if |w| < 4 || w[..4] != "id: " then None
    else
      match SplitAt(w[4..], '\n')
      case None => None
      case Some((digits, afterId)) =>
        match ReadNat(digits)
        case None => None
        case Some(id) =>
          if |afterId| < 5 || afterId[..5] != "data:" then None
          else
            match SplitAt(afterId[5..], '\n')
            case None => None
            case Some((data, afterData)) =>
              if afterData == [] || afterData[0] != '\n' then None
              else Some((Frame(id, data), afterData[1..]))
  }

  /** Reads a whole run of frames; `None` if any part is not a frame. */
  function ParseFrames(w: string): Option<seq<Frame>>
    decreases |w|
  {
    if w == [] then Some([])
    else
      match ParseFrame(w)
      case None => None
      case Some((f, rest)) =>
        match ParseFrames(rest)
        case None => None
        case Some(fs) => Some([f] + fs)
  }

  /** Reads what a connection wrote after its head back into frames. */
  function ParseWire(w: string): Option<seq<Frame>> {
    if w == [] || w[0] != '\n' then None else ParseFrames(w[1..])
  }

  /** A frame whose payload has no newline (as `JSON.stringify` guarantees) reads back as itself. */
  lemma ParseRenderFrame(f: Frame, rest: string)
    requires NoChar(f.data, '\n')
    ensures ParseFrame(RenderFrame(f) + rest) == Some((f, rest))
  {
    var d := NatToString(f.id);
    var w := RenderFrame(f) + rest;
    var afterId := "data:" + f.data + "\n\n" + rest;
    IdLine(f.id, afterId);
    assert w == "id: " + d + "\n" + afterId;
    DataLine(f.data, rest);
    ReadNatToString(f.id);
  }

  /** The `id:` line splits off at its newline, leaving the number's digits. */
  lemma IdLine(id: nat, afterId: string)
    ensures var w := "id: " + NatToString(id) + "\n" + afterId;
      |w| >= 4 && w[..4] == "id: " && SplitAt(w[4..], '\n') == Some((NatToString(id), afterId))
  {
    var d := NatToString(id);
    var w := "id: " + d + "\n" + afterId;
    assert w == "id: " + (d + "\n" + afterId);
    assert w[..4] == "id: " && w[4..] == d + "\n" + afterId;
    SplitAfterDigits(d, '\n', afterId);
  }

  /** The `data:` line splits off at its newline, leaving the blank line and what follows. */
  lemma DataLine(data: string, rest: string)
    requires NoChar(data, '\n')
    ensures var w := "data:" + data + "\n\n" + rest;
      |w| >= 5 && w[..5] == "data:" && SplitAt(w[5..], '\n') == Some((data, "\n" + rest))
  {
    var w := "data:" + data + "\n\n" + rest;
    assert w[..5] == "data:" && w[5..] == data + "\n" + ("\n" + rest);
    SplitAtFirst(data, '\n', "\n" + rest);
  }

  /** The rendered frames, read front to back. */
  lemma {:induction false} ParseRenderFrames(fs: seq<Frame>)
    requires forall k :: 0 <= k < |fs| ==> NoChar(fs[k].data, '\n')
    ensures ParseFrames(RenderFrames(fs)) == Some(fs)
    decreases |fs|
  {
    if fs != [] {
      RenderFramesFront(fs);
      var rest := RenderFrames(fs[1..]);
      ParseRenderFrame(fs[0], rest);
      ParseRenderFrames(fs[1..]);
      assert fs == [fs[0]] + fs[1..];
    }
  }

  /** Rendering peeled from the front rather than the back. */
  lemma {:induction false} RenderFramesFront(fs: seq<Frame>)
    requires fs != []
    ensures RenderFrames(fs) == RenderFrame(fs[0]) + RenderFrames(fs[1..])
    decreases |fs|
  {
    if |fs| > 1 {
      var init := fs[..|fs| - 1];
      RenderFramesFront(init);
      assert init[1..] == fs[1..][..|fs[1..]| - 1];
      assert init[0] == fs[0];
    } else {
      assert fs[1..] == [];
      assert fs[..0] == [];
    }
  }

  /** What a connection has written reads back as exactly the frames it emitted, in order. */
  lemma ParseWireRoundTrip(s: Session)
    requires forall k :: 0 <= k < |s.frames| ==> NoChar(s.frames[k].data, '\n')
    ensures ParseWire(Wire(s)) == Some(s.frames)
  {
    ParseRenderFrames(s.frames);
    assert Wire(s)[1..] == RenderFrames(s.frames);
  }

  /**
    On a fresh connection that emitted newline-free payloads, the stream reads
    back as frames whose ids are 0, 1, 2, ... and whose data are the payloads.
   */
  lemma FreshStreamReadsBack(payloads: seq<string>)
    requires forall k :: 0 <= k < |payloads| ==> NoChar(payloads[k], '\n')
    ensures var fs := ParseWire(Wire(EmitAll(Open(), payloads)));
      && fs.Some? && |fs.value| == |payloads|
      && forall k :: 0 <= k < |payloads| ==> fs.value[k].id == k && fs.value[k].data == payloads[k]
  {
    var t := EmitAll(Open(), payloads);
    FreshSessionNumbering(payloads);
    EmitAllNumbers(Open(), payloads);
    ParseWireRoundTrip(t);
  }
}

=== FILE: http.dfy ===
/** What a route handler can send back, and how the storage engine reports failure. */
module Http {

  /**
    An error reported by the storage engine. The handlers test two independent
    flags, `isNotFound` and `isInvalidData`; one error may carry both, which is
    why the order in which a handler tests them is observable.
   */
  datatype EngineError = EngineError(isNotFound: bool, isInvalidData: bool, message: string)

  /**
    The response a handler produces:
    - `Text`: `res.status(status).end(text)`;
    - `Json`: `res.send(doc)` (status 200) or `res.status(status).send(doc)`;
    - `Redirect`: `res.redirect(status, location)`;
    - `Headed`: `res.writeHead(status, headers)` (or headers set one by one),
      followed by the body described by `body`;
    - `Unanswered`: the status was set but the response was never ended.
   */
  datatype Response<+T> =
    | Text(status: nat, text: string)
    | Json(status: nat, doc: T)
    | Redirect(status: nat, location: string)
    | Headed(status: nat, headers: Headers, body: Body)
    | Unanswered(status: nat)

  /** The body that follows a head: none, the whole file, or the bytes `[from, until)` of it. */
  datatype Body = NoBody | WholeFile | Window(from: nat, until: nat)

  /** The generic reply for an unclassified failure. */
  const FatalStatus: nat := 500
  const FatalText := "fatal error"

  /** Header lists in the order the handler writes them. */
  type Headers = seq<(string, string)>

  /** The value of the first header called `name`, if any. */
  function HeaderValue(h: Headers, name: string): (v: string)
    requires HasHeader(h, name)
    ensures exists i :: 0 <= i < |h| && h[i] == (name, v) && forall j :: 0 <= j < i ==> h[j].0 != name
  {
    if h[0].0 == name then h[0].1 else
      assert exists i :: 1 <= i < |h| && h[i].0 == name;
      var v := HeaderValue(h[1..], name);
      ghost var i :| 0 <= i < |h| - 1 && h[1..][i] == (name, v) && forall j :: 0 <= j < i ==> h[1..][j].0 != name;
      assert h[i + 1] == (name, v);
      v
  }

  predicate HasHeader(h: Headers, name: string) {
    exists i :: 0 <= i < |h| && h[i].0 == name
  }

  /** A header whose name appears nowhere earlier in the list is the one `HeaderValue` finds. */
  lemma HeaderAt(h: Headers, i: nat)
    requires i < |h| && forall j :: 0 <= j < i ==> h[j].0 != h[i].0
    ensures HasHeader(h, h[i].0) && HeaderValue(h, h[i].0) == h[i].1
  {
    var v := HeaderValue(h, h[i].0);
  }
}

=== FILE: js.dfy ===
/**
  The slice of JavaScript value semantics the request handlers rely on: a
  parsed JSON request body, truthiness (`if (!x)`), property reads that throw
  a TypeError on `undefined`/`null`, `a || b`, and `String(v)` as used by
  string concatenation.
 */
module Js {
  import opened Decimal

  /** A value reachable from a parsed JSON body. Numbers are integers here. */
  datatype Value =
    | Undefined
    | Null
    | Bool(b: bool)
    | Num(n: int)
    | Str(s: string)
    | Arr(items: seq<Value>)
    | Obj(props: map<string, Value>)

  /** JavaScript truthiness: what `if (x)` and `!x` test. */
  predicate Truthy(v: Value) {
    match v
    case Undefined => false
    case Null => false
    case Bool(b) => b
    case Num(n) => n != 0
    case Str(s) => s != ""
    case Arr(_) => true
    case Obj(_) => true
  }

  /** The outcome of reading `v.key`: a value, or the TypeError thrown when `v` is nullish. */
  datatype Access = Thrown | Got(value: Value)

  predicate Nullish(v: Value) {
    v.Undefined? || v.Null?
  }

  /** `v.key`; a missing own property reads as `undefined`. */
  function Prop(v: Value, key: string): (a: Access)
    ensures a.Thrown? <==> Nullish(v)
    ensures v.Obj? && key in v.props ==> a == Got(v.props[key])
    ensures !Nullish(v) && !(v.Obj? && key in v.props) ==> a == Got(Undefined)
  {
    match v
    case Undefined => Thrown
    case Null => Thrown
    case Obj(m) => if key in m then Got(m[key]) else Got(Undefined)
    case _ => Got(Undefined)
  }

  /** `obj.key` on an object already known not to be nullish. */
  function Field(obj: Value, key: string): Value
    requires !Nullish(obj)
  {
    Prop(obj, key).value
  }

  /** `a || b`: the left operand when it is truthy, otherwise the right one. */
  function Or(a: Value, b: Value): (r: Value)
    ensures Truthy(a) ==> r == a
    ensures !Truthy(a) ==> r == b
  {
    if Truthy(a) then a else b
  }

  /** `String(v)`: arrays join their elements with commas, nullish elements as empty text. */
  function ToStr(v: Value): (s: string)
    ensures v.Str? ==> s == v.s
    ensures v.Num? ==> s == IntToString(v.n)
    ensures v == Undefined ==> s == "undefined"
    ensures v == Null ==> s == "null"
    ensures v.Bool? ==> s == (if v.b then "true" else "false")
    ensures v.Obj? ==> s == "[object Object]"
    ensures v.Arr? ==> s == JoinFrom(v, 0)
    decreases v, 1, 0
  {
    match v
    case Undefined => "undefined"
    case Null => "null"
    case Bool(b) => if b then "true" else "false"
    case Num(n) => IntToString(n)
    case Str(s) => s
    case Arr(items) => JoinFrom(v, 0)
    case Obj(_) => "[object Object]"
  }

  /** The comma-joined text of the array elements of `arr` from index `i` on. */
  function JoinFrom(arr: Value, i: nat): string
    requires arr.Arr? && i <= |arr.items|
    decreases arr, 0, |arr.items| - i
  {
    if i == |arr.items| then ""
    else
      var x := arr.items[i];
      var piece := if Nullish(x) then "" else ToStr(x);
      if i + 1 == |arr.items| then piece else piece + "," + JoinFrom(arr, i + 1)
  }

  /** An empty array prints as nothing, and a one-element array as its element (nullish as nothing). */
  lemma ShortArrayText(x: Value)
    ensures ToStr(Arr([])) == ""
    ensures ToStr(Arr([x])) == if Nullish(x) then "" else ToStr(x)
  {
    assert JoinFrom(Arr([x]), 0) == if Nullish(x) then "" else ToStr(x);
  }
}

=== FILE: mutations.dfy ===
/**
  `POST /operations` (index.js:51-115): the request body's `type` selects
  `mkdir`, `copy`, `move` or `add`; required fields are checked in a fixed
  order and the first missing one decides the 400 reply; a request that passes
  every check is dispatched to the storage engine, whose outcome decides the
  final reply.
 */
module Mutations {
  import opened Wrappers
  import opened Js
  import opened Http
  import opened ErrorMap
  import Operations

  /** The `conflict` policy of an `add`. */
  datatype ConflictMode = Skip | Replace | Rename

  /** What is handed to the engine once a request passes its checks. */
  datatype Command =
    | MakeDirectory(volume: Value, path: Value)
    | Copy(sourceVolume: Value, sourcePath: Value, destinationVolume: Value, destinationPath: Value, force: Value)
    | Move(sourceVolume: Value, sourcePath: Value, destinationVolume: Value, destinationPath: Value, force: Value)
    | Add(volume: Value, path: Value, sources: seq<Value>, conflict: ConflictMode)

  /**
    The fate of a request before any engine call: a 400 with a message, a
    dispatch, or the TypeError thrown by reading a field of a missing object
    (`target.name` when there is no `target`).
   */
  datatype Validation = Rejected(message: string) | Dispatch(command: Command) | Threw

  const UnknownType := "source is not of type slick or local"

  /** `conflict` as written, or `'skip'` when it is falsy. */
  function ConflictValue(body: Value): Value
    requires !Nullish(body)
  {
    Or(Field(body, "conflict"), Str("skip"))
  }

  /** The policy a `conflict` value names: exactly the three policy strings are known. */
  function ConflictModeOf(v: Value): (m: Option<ConflictMode>)
    ensures m == Some(Skip) <==> v == Str("skip")
    ensures m == Some(Replace) <==> v == Str("replace")
    ensures m == Some(Rename) <==> v == Str("rename")
  {
    if v == Str("skip") then Some(Skip)
    else if v == Str("replace") then Some(Replace)
    else if v == Str("rename") then Some(Rename)
    else None
  }

  /**
    The handler's checks, in the order it writes them. A missing body throws
    at the first read, and a dispatched command is of the kind `type` names.
   */
  function Validate(body: Value): (v: Validation)
    ensures Nullish(body) ==> v == Threw
    ensures v.Dispatch? ==>
      && (v.command.MakeDirectory? <==> Prop(body, "type") == Got(Str("mkdir")))
      && (v.command.Copy? <==> Prop(body, "type") == Got(Str("copy")))
      && (v.command.Move? <==> Prop(body, "type") == Got(Str("move")))
      && (v.command.Add? <==> Prop(body, "type") == Got(Str("add")))
    ensures v.Dispatch? && v.command.MakeDirectory? ==>
      && !Nullish(body) && !Nullish(Field(body, "target"))
      && v.command.volume == Field(Field(body, "target"), "name")
      && v.command.path == Field(Field(body, "target"), "path")
    ensures v.Dispatch? && (v.command.Copy? || v.command.Move?) ==>
      && !Nullish(body) && !Nullish(Field(body, "source")) && !Nullish(Field(body, "destination"))
      && v.command.sourceVolume == Field(Field(body, "source"), "name")
      && v.command.sourcePath == Field(Field(body, "source"), "path")
      && v.command.destinationVolume == Field(Field(body, "destination"), "name")
      && v.command.destinationPath == Field(Field(body, "destination"), "path")
      && v.command.force == Field(body, "force")
    ensures v.Dispatch? && v.command.Add? ==>
      && !Nullish(body) && !Nullish(Field(body, "destination"))
      && v.command.volume == Field(Field(body, "destination"), "name")
      && v.command.path == Field(Field(body, "destination"), "path")
      && Field(body, "sources") == Arr(v.command.sources)
      && ConflictModeOf(ConflictValue(body)) == Some(v.command.conflict)
  {
    match Prop(body, "type")
    case Thrown => Threw
    case Got(t) =>
      if t == Str("mkdir") then
        var target := Field(body, "target");
        if Nullish(target) then Threw
        else if !Truthy(Field(target, "name")) then Rejected("target must have name")
        else if !Truthy(Field(target, "path")) then Rejected("target must have path")
        else Dispatch(MakeDirectory(Field(target, "name"), Field(target, "path")))
      else if t == Str("copy") || t == Str("move") then
        var source, destination := Field(body, "source"), Field(body, "destination");
        if Nullish(source) then Threw
        else if !Truthy(Field(source, "name")) then Rejected("source must have name")
        else if !Truthy(Field(source, "path")) then Rejected("source must have path")
        else if Nullish(destination) then Threw
        else if !Truthy(Field(destination, "name")) then Rejected("destination must have name")
        else if !Truthy(Field(destination, "path")) then Rejected("destination must have path")
        else
          var sv, sp := Field(source, "name"), Field(source, "path");
          var dv, dp := Field(destination, "name"), Field(destination, "path");
          var force := Field(body, "force");
          Dispatch(if t == Str("copy") then Copy(sv, sp, dv, dp, force) else Move(sv, sp, dv, dp, force))
      else if t == Str("add") then
        var destination, sources, conflict := Field(body, "destination"), Field(body, "sources"), ConflictValue(body);
        if Nullish(destination) then Threw
        else if !Truthy(Field(destination, "name")) then Rejected("destination must have name")
        else if !Truthy(Field(destination, "path")) then Rejected("destination must have path")
        else if !sources.Arr? then Rejected("sources must be an array")
        else if ConflictModeOf(conflict).None? then Rejected("unknown conflict mode " + ToStr(conflict))
        else Dispatch(Add(Field(destination, "name"), Field(destination, "path"), sources.items, ConflictModeOf(conflict).value))
      else Rejected(UnknownType)
  }

  // ---- the checks as an ordered list ----

  /** The result of one check. */
  datatype Verdict = Pass | Fail(message: string) | Throw

  /** The first check that does not pass decides; if all pass, the request passes. */
  function FirstFailure(checks: seq<Verdict>): (v: Verdict)
    ensures v == Pass <==> forall i :: 0 <= i < |checks| ==> checks[i] == Pass
    ensures v != Pass ==> exists i :: 0 <= i < |checks| && checks[i] == v && forall j :: 0 <= j < i ==> checks[j] == Pass
    decreases |checks|
  {
    if checks == [] then Pass
    else if checks[0] != Pass then checks[0]
    else
      var v := FirstFailure(checks[1..]);
      assert forall i :: 1 <= i < |checks| ==> checks[1..][i - 1] == checks[i];
      v
  }

  /** `if (!obj.key) return 400 message`, which throws when `obj` is nullish. */
  function Require(obj: Value, key: string, message: string): Verdict {
    match Prop(obj, key)
    case Thrown => Throw
    case Got(v) => if Truthy(v) then Pass else Fail(message)
  }

  /**
    The checks a body must pass, as a list in source order. A check on a field
    of a missing object throws; since the field checks on one object come in
    pairs, the second of a pair is only reached if the object is present.
   */
  function Checks(body: Value): seq<Verdict> {
    match Prop(body, "type")
    case Thrown => [Throw]
    case Got(t) =>
      if t == Str("mkdir") then
        var target := Field(body, "target");
        [Require(target, "name", "target must have name"), Require(target, "path", "target must have path")]
      else if t == Str("copy") || t == Str("move") then
        var source, destination := Field(body, "source"), Field(body, "destination");
        [Require(source, "name", "source must have name"), Require(source, "path", "source must have path"),
         Require(destination, "name", "destination must have name"), Require(destination, "path", "destination must have path")]
      else if t == Str("add") then
        var destination, sources, conflict := Field(body, "destination"), Field(body, "sources"), ConflictValue(body);
        [Require(destination, "name", "destination must have name"), Require(destination, "path", "destination must have path"),
         if sources.Arr? then Pass else Fail("sources must be an array"),
         if ConflictModeOf(conflict).Some? then Pass else Fail("unknown conflict mode " + ToStr(conflict))]
      else [Fail(UnknownType)]
  }

  function VerdictOf(v: Validation): Verdict {
    match v
    case Rejected(m) => Fail(m)
    case Dispatch(_) => Pass
    case Threw => Throw
  }

  /**
    The handler's nested tests are exactly "the first failing check wins" over
    the list above: a request is rejected with the message of the first check
    it fails, throws at the first field read of a missing object, and is
    dispatched only when every check passes.
   */
  lemma ValidateIsFirstFailure(body: Value)
    ensures VerdictOf(Validate(body)) == FirstFailure(Checks(body))
  {
    match Prop(body, "type")
    case Thrown =>
    case Got(t) =>
      if t == Str("mkdir") {
        MkdirIsFirstFailure(body);
      } else if t == Str("copy") || t == Str("move") {
        TransferIsFirstFailure(body);
      } else if t == Str("add") {
        AddIsFirstFailure(body);
      }
  }

  /** Four checks: the first that does not pass, else Pass. */
  lemma FirstOfFour(cs: seq<Verdict>)
    requires |cs| == 4
    ensures FirstFailure(cs) == (if cs[0] != Pass then cs[0] else if cs[1] != Pass then cs[1]
                                 else if cs[2] != Pass then cs[2] else if cs[3] != Pass then cs[3] else Pass)
  {
    assert cs[1..][1..] == cs[2..] && cs[2..][1..] == cs[3..] && cs[3..][1..] == [];
  }

  lemma MkdirIsFirstFailure(body: Value)
    requires Prop(body, "type") == Got(Str("mkdir"))
    ensures VerdictOf(Validate(body)) == FirstFailure(Checks(body))
  {
    var cs := Checks(body);
    assert cs[1..][1..] == [];
  }

  lemma TransferIsFirstFailure(body: Value)
    requires Prop(body, "type") == Got(Str("copy")) || Prop(body, "type") == Got(Str("move"))
    ensures VerdictOf(Validate(body)) == FirstFailure(Checks(body))
  {
    FirstOfFour(Checks(body));
  }

  lemma AddIsFirstFailure(body: Value)
    requires Prop(body, "type") == Got(Str("add"))
    ensures VerdictOf(Validate(body)) == FirstFailure(Checks(body))
  {
    FirstOfFour(Checks(body));
  }

  /** An `add` without a truthy `conflict` is dispatched with the `skip` policy once its other checks pass. */
  lemma ConflictDefaultsToSkip(body: Value)
    requires !Nullish(body) && Prop(body, "type") == Got(Str("add"))
    requires !Truthy(Field(body, "conflict"))
    requires Validate(body).Dispatch?
    ensures Validate(body).command.Add? && Validate(body).command.conflict == Skip
  {
  }

  /** An `add` whose other checks pass and whose `conflict` is a string outside the three policies is refused, naming it. */
  lemma UnknownConflictRefused(body: Value, mode: string)
    requires !Nullish(body) && Prop(body, "type") == Got(Str("add"))
    requires Field(body, "conflict") == Str(mode) && mode !in {"", "skip", "replace", "rename"}
    requires var d := Field(body, "destination");
      !Nullish(d) && Truthy(Field(d, "name")) && Truthy(Field(d, "path")) && Field(body, "sources").Arr?
    ensures Validate(body) == Rejected("unknown conflict mode " + mode)
  {
  }

  /** An `add` is dispatched exactly when its destination has a name and a path, `sources` is an array and `conflict` is a known policy. */
  lemma AddDispatchedExactly(body: Value)
    requires !Nullish(body) && Prop(body, "type") == Got(Str("add"))
    ensures Validate(body).Dispatch? <==>
      var d := Field(body, "destination");
      && !Nullish(d) && Truthy(Field(d, "name")) && Truthy(Field(d, "path"))
      && Field(body, "sources").Arr?
      && Field(body, "conflict") in {Undefined, Null, Bool(false), Num(0), Str(""), Str("skip"), Str("replace"), Str("rename")}
  {
  }

  /** Any `type` other than the four kinds is refused with the same message, whatever else the body holds. */
  lemma OtherTypesRefused(body: Value)
    requires !Nullish(body) && Prop(body, "type").Got?
    requires Prop(body, "type").value !in {Str("mkdir"), Str("copy"), Str("move"), Str("add")}
    ensures Validate(body) == Rejected(UnknownType)
  {
  }

  /** A JSON array body has no `type`, so it is refused like any other unknown kind. */
  lemma ArrayBodyRefused(items: seq<Value>)
    ensures Validate(Arr(items)) == Rejected(UnknownType)
  {
    OtherTypesRefused(Arr(items));
  }

  // ---- after dispatch ----

  /**
    The reply once the engine has run a `mkdir`, `copy` or `move`: success is
    204; invalid-data is 400 with the engine's message; any other error sets
    status 500 but never ends the response.
   */
  function SyncReply(command: Command, err: Option<EngineError>): (r: Response<()>)
    requires !command.Add?
    ensures err.None? ==> r == Text(204, if command.MakeDirectory? then "directory created" else "copied")
    ensures err.Some? && err.value.isInvalidData ==> r == Text(400, err.value.message)
    ensures err.Some? && !err.value.isInvalidData ==> r == Unanswered(500)
  {
    match err
    case None => Text(204, if command.MakeDirectory? then "directory created" else "copied")
    case Some(e) => OneRuleError(SyncMutationRules[0], Unanswered(500), e)
  }

  /**
    The reply for an `add`: the destination volume is looked up first (a
    not-found error is 400 "cannot find volume", any other 500); then the
    engine starts the job, and its id becomes a 303 to the operation's URL.
   */
  function AddReply(lookup: Option<EngineError>, started: Result<nat, EngineError>): (r: Response<()>)
    ensures lookup.Some? && lookup.value.isNotFound ==> r == Text(400, "cannot find volume")
    ensures lookup.Some? && !lookup.value.isNotFound ==> r == Text(500, "fatal error")
    ensures lookup.None? && started.Err? ==> r == Text(500, "fatal error")
    ensures r.Redirect? <==> lookup.None? && started.Ok?
    ensures r.Redirect? ==> r.status == 303 && Operations.OperationIdFromUrl(r.location) == Some(started.value)
  {
    match lookup
    case Some(e) => OneRuleError(AddVolumeRules[0], Fatal(), e)
    case None =>
      match started
      case Err(_) => Fatal()
      case Ok(id) =>
        Operations.OperationUrlRoundTrip(id);
        Redirect(303, Operations.OperationUrl(id))
  }
}

=== FILE: operations.dfy ===
/**
  The operation resources (index.js:40-49, 117-138): listing, cancelling and
  fetching asynchronous `add` jobs, and the URLs that name them. The storage
  engine's registry is foreign; what it hands back is a parameter here.
 */
module Operations {
  import opened Wrappers
  import opened Decimal
  import opened Http
  import opened ErrorMap

  const OperationsPrefix := "/api/operations/"
  const EventsSuffix := "/events"

  /** `/api/operations/<id>`: where `POST /operations` sends the client after an `add`. */
  function OperationUrl(id: nat): string {
    OperationsPrefix + NatToString(id)
  }

  /** `/api/operations/<id>/events`: the operation's event stream. */
  function EventsUrl(id: nat): string {
    OperationUrl(id) + EventsSuffix
  }

  /** The id an operation URL names, if it is one: the prefix, then the id in its canonical spelling. */
  function OperationIdFromUrl(url: string): Option<nat> {
    if |url| < |OperationsPrefix| || url[..|OperationsPrefix|] != OperationsPrefix then None
    else if !Canonical(url[|OperationsPrefix|..]) then None
    else Some(Value(url[|OperationsPrefix|..]))
  }

  /** The id an event-stream URL names, if it is one. */
  function OperationIdFromEventsUrl(url: string): Option<nat> {
    if |url| < |EventsSuffix| || url[|url| - |EventsSuffix|..] != EventsSuffix then None
    else OperationIdFromUrl(url[..|url| - |EventsSuffix|])
  }

  /** An operation URL names the operation it was made for. */
  lemma OperationUrlRoundTrip(id: nat)
    ensures OperationIdFromUrl(OperationUrl(id)) == Some(id)
  {
    var url := OperationUrl(id);
    assert url[..|OperationsPrefix|] == OperationsPrefix;
    assert url[|OperationsPrefix|..] == NatToString(id);
    NatToStringCanonical(id);
    ValueOfNatToString(id);
  }

  /** Every text that names an operation is exactly that operation's URL. */
  lemma OperationIdFromUrlSound(url: string)
    requires OperationIdFromUrl(url).Some?
    ensures url == OperationUrl(OperationIdFromUrl(url).value)
  {
    var digits := url[|OperationsPrefix|..];
    NatToStringOfValue(digits);
    assert url == url[..|OperationsPrefix|] + digits;
  }

  /** An event-stream URL names the operation it was made for. */
  lemma EventsUrlRoundTrip(id: nat)
    ensures OperationIdFromEventsUrl(EventsUrl(id)) == Some(id)
  {
    var url := EventsUrl(id);
    assert url[|url| - |EventsSuffix|..] == EventsSuffix;
    assert url[..|url| - |EventsSuffix|] == OperationUrl(id);
    OperationUrlRoundTrip(id);
  }

  /** Every text that names an event stream is exactly that operation's event-stream URL. */
  lemma OperationIdFromEventsUrlSound(url: string)
    requires OperationIdFromEventsUrl(url).Some?
    ensures url == EventsUrl(OperationIdFromEventsUrl(url).value)
  {
    var stem := url[..|url| - |EventsSuffix|];
    OperationIdFromUrlSound(stem);
    assert url == stem + url[|url| - |EventsSuffix|..];
  }

  // ---- DELETE /operations/:id ----

  /**
    The reply to a cancellation: success is 204; an invalid-data error is 400
    with the engine's message; every other error, a not-found one included,
    is 500.
   */
  function CancelReply(err: Option<EngineError>): (r: Response<()>)
    ensures err.None? <==> r == Text(204, "operation canceled")
    ensures err.Some? && err.value.isInvalidData ==> r == Text(400, err.value.message)
    ensures err.Some? && !err.value.isInvalidData ==> r == Text(500, "fatal error")
  {
    match err
    case None => Text(204, "operation canceled")
    case Some(e) => OneRuleError(CancelRules[0], Fatal(), e)
  }

  // ---- GET /operations/:id ----

  /** `{operation: {state, events}}`. */
  datatype OperationDoc = OperationDoc(state: string, events: string)

  /**
    The reply to fetching one operation. Any engine error is 500 (it is tested
    before existence, and not classified); an unknown id is 404; otherwise the
    job's state and the URL of its event stream.
   */
  function GetOperationReply(id: nat, lookup: Result<Option<string>, EngineError>): (r: Response<OperationDoc>)
    ensures lookup.Err? ==> r == Text(500, "fatal error")
    ensures lookup == Ok(None) ==> r == Text(404, "not found")
    ensures r.Json? <==> lookup.Ok? && lookup.value.Some?
    ensures r.Json? ==> r.status == 200 && r.doc.state == lookup.value.value
                        && OperationIdFromEventsUrl(r.doc.events) == Some(id)
  {
    match lookup
    case Err(_) => Fatal()
    case Ok(None) => Text(404, "not found")
    case Ok(Some(state)) =>
      EventsUrlRoundTrip(id);
      Json(200, OperationDoc(state, EventsUrl(id)))
  }

  /** Fetching an operation answers the uniform reply to an engine error exactly when the error carries neither flag. */
  lemma GetOperationUnclassified(id: nat, e: EngineError)
    ensures GetOperationReply(id, Err(e)) == Uniform(e) <==> !e.isNotFound && !e.isInvalidData
  {
    UnclassifiedDeparts<OperationDoc>(e);
  }

  // ---- GET /operations ----

  /** An operation record as the engine's registry yields it. */
  datatype OperationRecord = OperationRecord(state: string, volume: string, destination: string, sources: seq<string>, mode: string)

  /** `{id, state, volume, destination, sources, type: 'add', mode}`. */
  datatype OperationJson = OperationJson(id: nat, state: string, volume: string, destination: string,
                                         sources: seq<string>, kind: string, mode: string)

  /** The listing tags every record as an `add`: it is the only kind with a record. */
  function OperationAsJson(id: nat, op: OperationRecord): OperationJson {
    OperationJson(id, op.state, op.volume, op.destination, op.sources, "add", op.mode)
  }

  /**
    `GET /operations`: the registry's records in the order it yields them,
    each projected and tagged `add`; an error from the iteration discards
    everything gathered and is 500.
   */
  method ListOperations(records: seq<(nat, OperationRecord)>, err: Option<EngineError>)
    returns (r: Response<seq<OperationJson>>)
    ensures err.Some? ==> r == Text(500, "fatal error")
    ensures err.None? ==> r.Json? && r.status == 200 && |r.doc| == |records|
    ensures r.Json? ==> forall i :: 0 <= i < |records| ==>
              && r.doc[i].id == records[i].0
              && r.doc[i].state == records[i].1.state
              && r.doc[i].volume == records[i].1.volume
              && r.doc[i].destination == records[i].1.destination
              && r.doc[i].sources == records[i].1.sources
              && r.doc[i].mode == records[i].1.mode
              && r.doc[i].kind == "add"
  {
    var gathered: seq<OperationJson> := [];
    var i := 0;
    while i < |records|
      invariant 0 <= i <= |records|
      invariant |gathered| == i
      invariant forall k :: 0 <= k < i ==> gathered[k] == OperationAsJson(records[k].0, records[k].1)
    {
      gathered := gathered + [OperationAsJson(records[i].0, records[i].1)];
      i := i + 1;
    }
    if err.Some? {
      return Fatal();
    }
    r := Json(200, gathered);
  }
}

=== FILE: projection.dfy ===
/**
  The wire shapes of volumes and entries (index.js:30-37): `volumeAsJson` and
  `entryAsJson`, with the two text transformations they use, Node's posix
  `path.basename` and a Buffer's `toString('hex')`.
 */
module Projection {
  import opened Wrappers
  import opened Strings

  // ---- volumes ----

  /** `{name, url, size}` of one volume. */
  datatype VolumeJson = VolumeJson(name: string, url: string, size: nat)

  const VolumesPrefix := "/api/volumes/"
  const EntriesSuffix := "/entries"

  /** The URL of a volume's entry listing. */
  function VolumeUrl(name: string): string {
    VolumesPrefix + name + EntriesSuffix
  }

  /** The volume name an entry-listing URL was built from, if it is one. */
  function VolumeNameFromUrl(url: string): Option<string> {
    if |url| >= |VolumesPrefix| + |EntriesSuffix|
       && url[..|VolumesPrefix|] == VolumesPrefix
       && url[|url| - |EntriesSuffix|..] == EntriesSuffix
    then Some(url[|VolumesPrefix|..|url| - |EntriesSuffix|])
    else None
  }

  /** Every volume URL names its volume. */
  lemma VolumeUrlRoundTrip(name: string)
    ensures VolumeNameFromUrl(VolumeUrl(name)) == Some(name)
  {
    var url := VolumeUrl(name);
    assert url[..|VolumesPrefix|] == VolumesPrefix;
    assert url[|url| - |EntriesSuffix|..] == EntriesSuffix;
    assert url[|VolumesPrefix|..|url| - |EntriesSuffix|] == name;
  }

  /** Every URL that names a volume is that volume's URL. */
  lemma VolumeNameFromUrlSound(url: string)
    requires VolumeNameFromUrl(url).Some?
    ensures VolumeUrl(VolumeNameFromUrl(url).value) == url
  {
    var name := VolumeNameFromUrl(url).value;
    assert url == url[..|VolumesPrefix|] + name + url[|url| - |EntriesSuffix|..];
  }

  /** `volumeAsJson(name, volume)`: the volume's name, its listing URL and the size of its root. */
  function VolumeAsJson(name: string, rootSize: nat): (j: VolumeJson)
    ensures j.name == name && j.size == rootSize
    ensures VolumeNameFromUrl(j.url) == Some(name)
  {
    VolumeUrlRoundTrip(name);
    VolumeJson(name, VolumeUrl(name), rootSize)
  }

  /** A new, empty volume `test` is listed as `{name: 'test', url: '/api/volumes/test/entries', size: 0}`. */
  lemma EmptyTestVolume()
    ensures VolumeAsJson("test", 0) == VolumeJson("test", "/api/volumes/test/entries", 0)
  {
  }

  // ---- path.basename ----

  /** `p` without its trailing slashes. */
  function TrimTrailingSlashes(p: string): (t: string)
    ensures |t| <= |p| && t == p[..|t|]
    ensures t == [] || t[|t| - 1] != '/'
    ensures forall j :: |t| <= j < |p| ==> p[j] == '/'
  {
    if p == [] || p[|p| - 1] != '/' then p else TrimTrailingSlashes(p[..|p| - 1])
  }

  /** The text after the last slash of `t` (all of `t` when it has none). */
  function AfterLastSlash(t: string): (b: string)
    ensures |b| <= |t| && b == t[|t| - |b|..]
    ensures forall j :: 0 <= j < |b| ==> b[j] != '/'
    ensures |b| < |t| ==> t[|t| - |b| - 1] == '/'
  {
    if t == [] || t[|t| - 1] == '/' then [] else AfterLastSlash(t[..|t| - 1]) + [t[|t| - 1]]
  }

  /** Node's posix `path.basename(p)`: the last non-empty segment, trailing slashes ignored. */
  function Basename(p: string): (b: string)
    ensures forall j :: 0 <= j < |b| ==> b[j] != '/'
  {
    AfterLastSlash(TrimTrailingSlashes(p))
  }

  /** A text without a slash is its own last segment. */
  lemma {:induction false} AfterLastSlashOfSegment(n: string)
    requires NoChar(n, '/')
    ensures AfterLastSlash(n) == n
    decreases |n|
  {
    if n != [] {
      AfterLastSlashOfSegment(n[..|n| - 1]);
      assert n == n[..|n| - 1] + [n[|n| - 1]];
    }
  }

  /** The last segment of `dir/n` is `n`. */
  lemma {:induction false} AfterLastSlashOfJoin(dir: string, n: string)
    requires NoChar(n, '/')
    ensures AfterLastSlash(dir + "/" + n) == n
    decreases |n|
  {
    var t := dir + "/" + n;
    if n == [] {
      assert t[|t| - 1] == '/';
    } else {
      assert t[..|t| - 1] == dir + "/" + n[..|n| - 1];
      AfterLastSlashOfJoin(dir, n[..|n| - 1]);
      assert t[|t| - 1] == n[|n| - 1];
      assert n == n[..|n| - 1] + [n[|n| - 1]];
    }
  }

  /** The base name of `dir/n/` and of `dir/n` is `n` whenever `n` is one non-empty segment. */
  lemma BasenameOfJoin(dir: string, n: string, trailing: nat)
    requires n != [] && NoChar(n, '/')
    ensures Basename(dir + "/" + n + seq(trailing, _ => '/')) == n
  {
    var slashes := seq(trailing, _ => '/');
    var p := dir + "/" + n + slashes;
    TrimSlashRun(dir + "/" + n, trailing);
    AfterLastSlashOfJoin(dir, n);
  }

  /** Trimming removes a run of trailing slashes and stops at the last other character. */
  lemma {:induction false} TrimSlashRun(q: string, k: nat)
    requires q != [] && q[|q| - 1] != '/'
    ensures TrimTrailingSlashes(q + seq(k, _ => '/')) == q
    decreases k
  {
    if k > 0 {
      var p := q + seq(k, _ => '/');
      assert p[|p| - 1] == '/';
      assert p[..|p| - 1] == q + seq(k - 1, _ => '/');
      TrimSlashRun(q, k - 1);
    } else {
      assert q + seq(0, _ => '/') == q;
    }
  }

  /** A single segment is its own base name. */
  lemma BasenameOfSegment(n: string)
    requires NoChar(n, '/')
    ensures Basename(n) == n
  {
    AfterLastSlashOfSegment(n);
  }

  // ---- hex ----

  type Byte = x: int | 0 <= x < 256

  const HexDigits := "0123456789abcdef"

  function HexValue(c: char): Option<nat> {
    if '0' <= c <= '9' then Some(c as int - '0' as int)
    else if 'a' <= c <= 'f' then Some(c as int - 'a' as int + 10)
    else None
  }

  /** `buffer.toString('hex')`: two lower-case hex digits per byte, high nibble first. */
  function Hex(bytes: seq<Byte>): (h: string)
    ensures |h| == 2 * |bytes|
  {
    if bytes == [] then []
    else [HexDigits[bytes[0] / 16], HexDigits[bytes[0] % 16]] + Hex(bytes[1..])
  }

  /** Reads hex text back into bytes; `None` for odd length or a non-hex character. */
  function Unhex(h: string): Option<seq<Byte>>
    decreases |h|
  {
    if h == [] then Some([])
    else if |h| == 1 then None
    else
      match (HexValue(h[0]), HexValue(h[1]), Unhex(h[2..]))
      case (Some(hi), Some(lo), Some(rest)) => Some([hi * 16 + lo] + rest)
      case _ => None
  }

  lemma HexDigitValue(d: nat)
    requires d < 16
    ensures HexValue(HexDigits[d]) == Some(d)
  {
  }

  /** Hex text reads back as the bytes it was written from. */
  lemma {:induction false} UnhexHex(bytes: seq<Byte>)
    ensures Unhex(Hex(bytes)) == Some(bytes)
    decreases |bytes|
  {
    if bytes != [] {
      var b := bytes[0];
      var h := Hex(bytes);
      HexDigitValue(b / 16);
      HexDigitValue(b % 16);
      assert h[2..] == Hex(bytes[1..]);
      UnhexHex(bytes[1..]);
      assert bytes == [b] + bytes[1..];
    }
  }

  // ---- entries ----

  /**
    An entry as the engine hands it to the gateway. `reference64` is the
    base64 text of the entry's latest reference, which the engine's own
    `toBuffer` produces; `folderCount` is `entries.count` of a folder.
   */
  datatype Entry = Entry(
    digest: Option<seq<Byte>>,
    ctime: string,
    mtime: string,
    objectType: string,
    mimeType: Option<string>,
    size: nat,
    reference64: string,
    folderCount: nat)

  /** The `{digest, ctime, mtime, name, folder, type, size, url, fullpath}` shape of one entry. */
  datatype EntryJson = EntryJson(
    digest: Option<string>,
    ctime: string,
    mtime: string,
    name: string,
    folder: bool,
    mimeType: Option<string>,
    size: nat,
    url: string,
    fullpath: string)

  const FolderType := "fo"
  const FileType := "fl"

  /** `entry.digest && entry.digest.toString('hex')`: hex text that reads back as the digest. */
  function HexDigest(digest: Option<seq<Byte>>): (r: Option<string>)
    ensures r.Some? <==> digest.Some?
    ensures digest.Some? ==> Unhex(r.value) == digest
  {
    match digest
    case None => None
    case Some(d) =>
      UnhexHex(d);
      Some(Hex(d))
  }

  /** `entryAsJson(fullpath, url, entry)`. */
  function EntryAsJson(fullpath: string, url: string, entry: Entry): (j: EntryJson)
    ensures j.folder <==> entry.objectType == FolderType
    ensures j.name == Basename(fullpath) && NoChar(j.name, '/')
    ensures j.digest == HexDigest(entry.digest)
    ensures j.ctime == entry.ctime && j.mtime == entry.mtime && j.mimeType == entry.mimeType
    ensures j.size == entry.size && j.url == url && j.fullpath == fullpath
  {
    EntryJson(HexDigest(entry.digest), entry.ctime, entry.mtime, Basename(fullpath), entry.objectType == FolderType,
              entry.mimeType, entry.size, url, fullpath)
  }

  /** An entry listed at `/dir/name` is called `name`. */
  lemma EntryNamedAfterLastSegment(dir: string, name: string, url: string, entry: Entry)
    requires name != [] && NoChar(name, '/')
    ensures EntryAsJson(dir + "/" + name, url, entry).name == name
  {
    BasenameOfJoin(dir, name, 0);
    assert dir + "/" + name + seq(0, _ => '/') == dir + "/" + name;
  }
}

=== FILE: ranges.dfy ===
/**
  Byte-range negotiation for `GET /volumes/:name/file/<path>` (index.js:305-324):
  a single-range subset of the `bytes=first-last` syntax of section 2.1 of
  RFC 7233, answered with a `Content-Range` as in section 4.2 of RFC 7233.

  The handler departs from the RFC at three boundaries, and the model keeps all
  three: a range whose first and last byte coincide is refused (`start >= end`),
  a last byte equal to the file size is accepted (one past the final byte), and
  a last byte beyond that is refused rather than clipped to the file.
 */
module Ranges {
  import opened Wrappers
  import opened Decimal
  import opened Strings

  /** `bytes=first-last`; `last` is absent when nothing follows the dash. */
  datatype RangeSpec = RangeSpec(first: nat, last: Option<nat>)

  const Unit := "bytes="

  /**
    The range header as the handler reads it: the first `bytes=` anywhere is
    removed and the rest is split at every dash. The first piece is the first
    byte; the second piece, when there is one and it is not empty, is the last
    byte, and otherwise the range runs to the end of the file (so `5`, `5-`
    and `5--7` all mean "from byte 5"); pieces after the second are ignored.
    Only pieces that are plain decimal digits are modelled; anything else
    (which JavaScript's `parseInt` turns into `NaN`, or reads a prefix of) is
    `None`.
   */
  function ParseRangeHeader(h: string): Option<RangeSpec> {
    ParseRangeBody(RemoveFirst(h, Unit))
  }

  /** A header that starts with the unit is read as the text after it. */
  lemma ParseAfterUnit(h: string)
    requires |h| >= |Unit| && h[..|Unit|] == Unit
    ensures ParseRangeHeader(h) == ParseRangeBody(h[|Unit|..])
  {
    assert h == Unit + h[|Unit|..];
    RemoveFirstAtFront(Unit, h[|Unit|..]);
  }

  /** `positions[1]`: the text between the first dash and the next one (or the end). */
  function SecondPiece(rest: string): string {
    match SplitAt(rest, '-')
    case None => rest
    case Some((x, _)) => x
  }

  /** `first-last`, `first-` or `first` after the unit has been removed. */
  function ParseRangeBody(body: string): Option<RangeSpec> {
    match SplitAt(body, '-')
    case None =>
      (match ReadNat(body)
       case None => None
       case Some(first) => Some(RangeSpec(first, None)))
    case Some((a, rest)) =>
      match ReadNat(a)
      case None => None
      case Some(first) =>
        var b := SecondPiece(rest);
        if b == [] then Some(RangeSpec(first, None))
        else
          match ReadNat(b)
          case None => None
          case Some(last) => Some(RangeSpec(first, Some(last)))
  }

  /** The spec that a first piece `d1` and a second piece `d2` of digits denote. */
  function SpecOf(d1: string, d2: string): RangeSpec
    requires AllDigits(d1) && AllDigits(d2)
  {
    RangeSpec(Value(d1), if d2 == [] then None else Some(Value(d2)))
  }

  /**
    A body with a dash, written `d1-d2` followed by nothing or by another dash
    and anything: it is read exactly when `d1` is a non-empty digit string and
    `d2` a possibly empty one, as `d1` up to `d2` (or to the end when `d2` is empty).
   */
  lemma ParseRangeBodyWithDash(d1: string, d2: string, tail: string)
    requires NoChar(d1, '-') && NoChar(d2, '-') && (tail == [] || tail[0] == '-')
    ensures ParseRangeBody(d1 + "-" + d2 + tail).Some? <==> d1 != [] && AllDigits(d1) && AllDigits(d2)
    ensures ParseRangeBody(d1 + "-" + d2 + tail).Some? ==> ParseRangeBody(d1 + "-" + d2 + tail) == Some(SpecOf(d1, d2))
  {
    var rest := d2 + tail;
    assert d1 + "-" + d2 + tail == d1 + ['-'] + rest;
    SplitAtFirst(d1, '-', rest);
    if tail == [] {
      assert rest == d2;
      assert SecondPiece(rest) == d2;
    } else {
      assert rest == d2 + ['-'] + tail[1..];
      SplitAtFirst(d2, '-', tail[1..]);
      assert SecondPiece(rest) == d2;
    }
  }

  /** A body without a dash is read exactly when it is a non-empty digit string, as an open-ended range. */
  lemma ParseRangeBodyWithoutDash(d1: string)
    requires NoChar(d1, '-')
    ensures ParseRangeBody(d1).Some? <==> d1 != [] && AllDigits(d1)
    ensures ParseRangeBody(d1).Some? ==> ParseRangeBody(d1) == Some(RangeSpec(Value(d1), None))
  {
  }

  /** The text after the unit in the canonical range request. */
  function RangeBody(spec: RangeSpec): string {
    NatToString(spec.first) + "-" + (if spec.last.Some? then NatToString(spec.last.value) else "")
  }

  /** The canonical text of a range request. */
  function FormatRangeHeader(spec: RangeSpec): string {
    Unit + RangeBody(spec)
  }

  lemma ParseRangeBodyRoundTrip(spec: RangeSpec)
    ensures ParseRangeBody(RangeBody(spec)) == Some(spec)
  {
    var d2 := if spec.last.Some? then NatToString(spec.last.value) else "";
    SplitAfterDigits(NatToString(spec.first), '-', d2);
    assert SplitAt(d2, '-').None?;
    ReadNatToString(spec.first);
    if spec.last.Some? {
      ReadNatToString(spec.last.value);
    }
  }

  /** Every range request the client can write is read back as written. */
  lemma ParseFormatRangeHeader(spec: RangeSpec)
    ensures ParseRangeHeader(FormatRangeHeader(spec)) == Some(spec)
  {
    RemoveFirstAtFront(Unit, RangeBody(spec));
    ParseRangeBodyRoundTrip(spec);
  }

  /** Because the unit is removed rather than required, a bare `first-last` is read the same way. */
  lemma UnitIsOptional(spec: RangeSpec)
    ensures ParseRangeHeader(RangeBody(spec)) == Some(spec)
  {
    var d1 := NatToString(spec.first);
    var d2 := if spec.last.Some? then NatToString(spec.last.value) else "";
    var body := RangeBody(spec);
    assert body == d1 + "-" + d2;
    forall j | 0 <= j < |body|
      ensures !OccursAt(body, Unit, j)
    {
      assert body[j] == '-' || IsDigit(body[j]) by {
        if j < |d1| {
          assert body[j] == d1[j];
        } else if j > |d1| {
          assert body[j] == d2[j - |d1| - 1];
        }
      }
      if j + |Unit| <= |body| {
        assert body[j..j + |Unit|][0] == body[j];
      }
    }
    ParseRangeBodyRoundTrip(spec);
  }

  /** The last byte the handler uses: the one asked for, else `size - 1` (which is `-1` for an empty file). */
  function EffectiveEnd(spec: RangeSpec, size: nat): int {
    if spec.last.Some? then spec.last.value else size - 1
  }

  /** The handler's answer to a range request on a file of `size` bytes. */
  datatype Negotiation =
    | Unparsed
    | Refused(status: nat, message: string)
    | Partial(status: nat, start: nat, end: nat, contentRange: string, contentLength: nat, from: nat, until: nat)

  /** `Content-Range: bytes start-end/size`. */
  function ContentRange(start: nat, end: nat, size: nat): string {
    "bytes " + NatToString(start) + "-" + NatToString(end) + "/" + NatToString(size)
  }

  /** Reads a `Content-Range` value back into its three numbers. */
  function ParseContentRange(v: string): Option<(nat, nat, nat)> {
    if |v| < 6 || v[..6] != "bytes " then None
    else
      match SplitAt(v[6..], '-')
      case None => None
      case Some((a, tail)) =>
        match SplitAt(tail, '/')
        case None => None
        case Some((b, c)) =>
          match (ReadNat(a), ReadNat(b), ReadNat(c))
          case (Some(x), Some(y), Some(z)) => Some((x, y, z))
          case _ => None
  }

  /** The `Content-Range` the handler writes names exactly the window and the file size. */
  lemma ParseContentRangeRoundTrip(start: nat, end: nat, size: nat)
    ensures ParseContentRange(ContentRange(start, end, size)) == Some((start, end, size))
  {
    var a, b, c := NatToString(start), NatToString(end), NatToString(size);
    var v := ContentRange(start, end, size);
    var tail := b + "/" + c;
    assert v == "bytes " + (a + "-" + tail);
    assert v[..6] == "bytes " && v[6..] == a + "-" + tail;
    SplitAfterDigits(a, '-', tail);
    SplitAfterDigits(b, '/', c);
    ReadNatToString(start);
    ReadNatToString(end);
    ReadNatToString(size);
  }

  /**
    Validation in the handler's order: first `start >= end`, then `end > size`;
    otherwise 206 with `Content-Length = end - start + 1` and the stream window
    `[start, end + 1)`.
   */
  function Negotiate(spec: RangeSpec, size: nat): (n: Negotiation)
    ensures n != Unparsed
    ensures n == Refused(400, "start is greater than end") <==> spec.first >= EffectiveEnd(spec, size)
    ensures n == Refused(400, "end exceeds file length") <==> spec.first < EffectiveEnd(spec, size) && EffectiveEnd(spec, size) > size
    ensures n.Partial? <==> spec.first < EffectiveEnd(spec, size) <= size
    ensures n.Partial? ==>
      && n.status == 206
      && n.start == spec.first && n.end == EffectiveEnd(spec, size)
      && n.contentLength == n.end - n.start + 1
      && n.contentRange == ContentRange(n.start, n.end, size)
      && n.from == n.start && n.until - n.from == n.contentLength
  {
    var start, end := spec.first, EffectiveEnd(spec, size);
    if start >= end then Refused(400, "start is greater than end")
    else if end > size then Refused(400, "end exceeds file length")
    else
      Partial(206, start, end, ContentRange(start, end, size), end - start + 1, start, end + 1)
  }

  /** The `Content-Range` of an accepted range reads back as its window and the file size. */
  lemma ContentRangeNamesWindow(spec: RangeSpec, size: nat)
    requires Negotiate(spec, size).Partial?
    ensures var n := Negotiate(spec, size);
      ParseContentRange(n.contentRange) == Some((spec.first, n.end, size))
  {
    var n := Negotiate(spec, size);
    ParseContentRangeRoundTrip(n.start, n.end, size);
  }

  /** The whole range step: parse the header, then negotiate. */
  function NegotiateHeader(h: string, size: nat): (n: Negotiation)
    ensures ParseRangeHeader(h).None? <==> n == Unparsed
    ensures ParseRangeHeader(h).Some? ==> n == Negotiate(ParseRangeHeader(h).value, size)
  {
    match ParseRangeHeader(h)
    case None => Unparsed
    case Some(spec) => Negotiate(spec, size)
  }

  /**
    A header `bytes=d1-d2`, possibly followed by another dash and anything, is
    negotiated as the range from `d1` to `d2` (to the end when `d2` is empty)
    exactly when `d1` is a non-empty digit string and `d2` a digit string;
    otherwise it is outside the modelled syntax.
   */
  lemma NegotiateHeaderText(d1: string, d2: string, tail: string, size: nat)
    requires NoChar(d1, '-') && NoChar(d2, '-') && (tail == [] || tail[0] == '-')
    ensures var n := NegotiateHeader(Unit + d1 + "-" + d2 + tail, size);
      && (n == Unparsed <==> !(d1 != [] && AllDigits(d1) && AllDigits(d2)))
      && (n != Unparsed ==> n == Negotiate(SpecOf(d1, d2), size))
  {
    var body := d1 + "-" + d2 + tail;
    assert Unit + d1 + "-" + d2 + tail == Unit + body;
    RemoveFirstAtFront(Unit, body);
    ParseRangeBodyWithDash(d1, d2, tail);
  }

  /** A header `bytes=d1` with no dash at all is read as open-ended, like `bytes=d1-`. */
  lemma NoDashIsOpenEnded(d1: string, size: nat)
    requires d1 != [] && AllDigits(d1)
    ensures NegotiateHeader(Unit + d1, size) == NegotiateHeader(Unit + d1 + "-", size)
    ensures NegotiateHeader(Unit + d1, size) == Negotiate(RangeSpec(Value(d1), None), size)
  {
    assert NoChar(d1, '-') by {
      forall j | 0 <= j < |d1| ensures d1[j] != '-' { assert IsDigit(d1[j]); }
    }
    RemoveFirstAtFront(Unit, d1);
    ParseRangeBodyWithoutDash(d1);
    NegotiateHeaderText(d1, "", "", size);
    assert Unit + d1 + "-" + "" + "" == Unit + d1 + "-";
  }

  /** A range request the client writes is negotiated on exactly the range it names. */
  lemma NegotiateFormatted(spec: RangeSpec, size: nat)
    ensures NegotiateHeader(FormatRangeHeader(spec), size) == Negotiate(spec, size)
  {
    ParseFormatRangeHeader(spec);
  }

  /** `bytes=0-9` on a 34-byte file is `206`, `Content-Range: bytes 0-9/34`, `Content-Length: 10`. */
  lemma TenBytesOfThirtyFour()
    ensures var n := NegotiateHeader("bytes=0-9", 34);
      n.Partial? && n.status == 206 && n.contentRange == "bytes 0-9/34" && n.contentLength == 10
  {
    var spec := RangeSpec(0, Some(9));
    NegotiateFormatted(spec, 34);
    assert FormatRangeHeader(spec) == "bytes=0-9";
    assert ContentRange(0, 9, 34) == "bytes 0-9/34";
  }

  /** A single-byte range is always refused, whatever the file size. */
  lemma SingleByteRefused(b: nat, size: nat)
    ensures NegotiateHeader(FormatRangeHeader(RangeSpec(b, Some(b))), size) == Refused(400, "start is greater than end")
  {
    NegotiateFormatted(RangeSpec(b, Some(b)), size);
  }

  /** An open-ended range asks for everything up to the last byte of the file. */
  lemma OpenEndedRange(first: nat, size: nat)
    requires first + 1 < size
    ensures var n := NegotiateHeader(FormatRangeHeader(RangeSpec(first, None)), size);
      n.Partial? && n.end == size - 1 && n.contentLength == size - first && n.until == size
  {
    NegotiateFormatted(RangeSpec(first, None), size);
  }

  /** The accepted window lies inside the file exactly when `end < size`; at `end == size` it reaches one byte past it. */
  lemma WindowInsideFile(spec: RangeSpec, size: nat)
    requires Negotiate(spec, size).Partial?
    ensures Negotiate(spec, size).until <= size <==> Negotiate(spec, size).end < size
    ensures Negotiate(spec, size).end == size ==> Negotiate(spec, size).until == size + 1
  {
  }

  /** What section 2.1 of RFC 7233 makes of a single byte-range-spec. */
  datatype RfcOutcome =
    | Ignored                       // last < first: the header is invalid and the whole file is served
    | Unsatisfiable                 // first >= size: 416
    | Serve(first: nat, last: nat)  // the inclusive window, last clipped to the file

  function RfcNegotiate(spec: RangeSpec, size: nat): RfcOutcome {
    if spec.last.Some? && spec.last.value < spec.first then Ignored
    else if spec.first >= size then Unsatisfiable
    else
      var last := if spec.last.Some? && spec.last.value < size then spec.last.value else size - 1;
      Serve(spec.first, last)
  }

  /** On every window it accepts inside the file, the handler serves what the RFC serves. */
  lemma AcceptedInsideFileIsRfc(spec: RangeSpec, size: nat)
    requires Negotiate(spec, size).Partial? && Negotiate(spec, size).end < size
    ensures RfcNegotiate(spec, size) == Serve(spec.first, Negotiate(spec, size).end)
  {
  }

  /**
    Among the ranges the RFC serves without clipping, the handler accepts
    exactly those at least two bytes long, and then serves the same window:
    the single-byte window is the one it refuses.
   */
  lemma RfcServedAcceptedExactly(spec: RangeSpec, size: nat)
    requires RfcNegotiate(spec, size).Serve?
    requires spec.last.Some? ==> spec.last.value < size
    ensures Negotiate(spec, size).Partial? <==> RfcNegotiate(spec, size).first < RfcNegotiate(spec, size).last
    ensures Negotiate(spec, size).Partial? ==> Negotiate(spec, size).end == RfcNegotiate(spec, size).last
  {
    var rfc := RfcNegotiate(spec, size);
    assert rfc.first == spec.first && rfc.last == EffectiveEnd(spec, size);
  }

  /** A last byte equal to the file size is accepted, where the RFC clips it to the final byte. */
  lemma EndAtSizeAccepted(first: nat, size: nat)
    requires first < size
    ensures Negotiate(RangeSpec(first, Some(size)), size).Partial?
    ensures RfcNegotiate(RangeSpec(first, Some(size)), size) == Serve(first, size - 1)
  {
  }

  /** A last byte past the file size is refused, where the RFC clips it to the final byte. */
  lemma EndPastSizeRefused(first: nat, last: nat, size: nat)
    requires first < size < last
    ensures Negotiate(RangeSpec(first, Some(last)), size) == Refused(400, "end exceeds file length")
    ensures RfcNegotiate(RangeSpec(first, Some(last)), size) == Serve(first, size - 1)
  {
  }
}

=== FILE: strings.dfy ===
/** Searching text: the first occurrence of a character or of a fixed word. */
module Strings {
  import opened Wrappers
  import opened Decimal

  /** `c` does not occur in `s`. */
  predicate NoChar(s: string, c: char) {
    forall j :: 0 <= j < |s| ==> s[j] != c
  }

  /** The index of the first `c` in `s`, or `|s|` when there is none. */
  function FirstOf(s: string, c: char): (k: nat)
    ensures k <= |s|
    ensures k < |s| ==> s[k] == c
    ensures forall j :: 0 <= j < k ==> s[j] != c
    decreases |s|
  {
    if s == [] then 0
    else if s[0] == c then 0
    else 1 + FirstOf(s[1..], c)
  }

  /** In `a + [c] + rest` with no `c` in `a`, the first `c` is the one right behind `a`. */
  lemma FirstOfAfter(a: string, c: char, rest: string)
    requires NoChar(a, c)
    ensures FirstOf(a + [c] + rest, c) == |a|
  {
    var s := a + [c] + rest;
    assert s[|a|] == c;
    assert forall j :: 0 <= j < |a| ==> s[j] == a[j];
  }

  /** `s` cut at its first `c`: the text before it and the text after it. */
  function SplitAt(s: string, c: char): (r: Option<(string, string)>)
    ensures r.None? <==> NoChar(s, c)
    ensures r.Some? ==> s == r.value.0 + [c] + r.value.1 && NoChar(r.value.0, c)
  {
    var k := FirstOf(s, c);
    if k == |s| then None
    else
      assert s == s[..k] + [c] + s[k + 1..];
      Some((s[..k], s[k + 1..]))
  }

  /** Cutting `a + [c] + rest` at its first `c` gives back `a` and `rest` when `a` holds no `c`. */
  lemma SplitAtFirst(a: string, c: char, rest: string)
    requires NoChar(a, c)
    ensures SplitAt(a + [c] + rest, c) == Some((a, rest))
  {
    var s := a + [c] + rest;
    FirstOfAfter(a, c, rest);
    assert s[..|a|] == a;
    assert s[|a| + 1..] == rest;
  }

  /** Cutting a text at the first character that is not a digit. */
  lemma SplitAfterDigits(d: string, c: char, rest: string)
    requires AllDigits(d) && !IsDigit(c)
    ensures SplitAt(d + [c] + rest, c) == Some((d, rest))
  {
    SplitAtFirst(d, c, rest);
  }

  /** A non-empty digit string as a number; any other text as `None`. */
  function ReadNat(s: string): (r: Option<nat>)
    ensures r.Some? <==> s != [] && AllDigits(s)
  {
    if s != [] && AllDigits(s) then Some(Value(s)) else None
  }

  /** Reading back a written number gives it again. */
  lemma ReadNatToString(n: nat)
    ensures ReadNat(NatToString(n)) == Some(n)
  {
    ValueOfNatToString(n);
  }

  /** `pat` occurs in `s` at index `i`. */
  predicate OccursAt(s: string, pat: string, i: nat) {
    i + |pat| <= |s| && s[i..i + |pat|] == pat
  }

  /** The index of the first occurrence of `pat` in `s` at or after `i`, or `|s|` when there is none. */
  function FindFrom(s: string, pat: string, i: nat): (k: nat)
    requires i <= |s|
    ensures i <= k <= |s|
    ensures k < |s| ==> OccursAt(s, pat, k)
    ensures forall j :: i <= j < k ==> !OccursAt(s, pat, j)
    ensures k == |s| ==> forall j :: i <= j < |s| ==> !OccursAt(s, pat, j)
    decreases |s| - i
  {
    if i == |s| then i
    else if OccursAt(s, pat, i) then i
    else FindFrom(s, pat, i + 1)
  }

  /**
    `s.replace(pat, "")` for a plain-string pattern: only the FIRST occurrence
    is removed; text without one is left as it is.
   */
  function RemoveFirst(s: string, pat: string): (r: string)
    requires |pat| > 0
    ensures (forall j :: 0 <= j < |s| ==> !OccursAt(s, pat, j)) ==> r == s
    ensures |r| == |s| || |r| == |s| - |pat|
    ensures FindFrom(s, pat, 0) < |s| ==> r == s[..FindFrom(s, pat, 0)] + s[FindFrom(s, pat, 0) + |pat|..]
  {
    var k := FindFrom(s, pat, 0);
    if k == |s| then s else s[..k] + s[k + |pat|..]
  }

  /** Removing a word from the front of a text that starts with it. */
  lemma RemoveFirstAtFront(pat: string, rest: string)
    requires |pat| > 0
    ensures RemoveFirst(pat + rest, pat) == rest
  {
    var s := pat + rest;
    assert OccursAt(s, pat, 0) by { assert s[..|pat|] == pat; }
    assert FindFrom(s, pat, 0) == 0;
    assert s[|pat|..] == rest;
  }
}

=== FILE: volumes.dfy ===
/**
  The volume and entry resources (index.js:176-253): listing, creating,
  fetching and destroying volumes, and listing and removing entries. Each
  engine call is foreign; its result (a value or a classified error) is a
  parameter, and the model is what the handler does with it.
 */
module Volumes {
  import opened Wrappers
  import opened Js
  import opened Http
  import opened ErrorMap
  import opened Projection

  /** One volume as `eachVolume` yields it, with the outcome of its `getVolume` (the root's size). */
  datatype VolumeProbe = VolumeProbe(name: string, root: Result<nat, EngineError>)

  predicate AnyProbeFailed(probes: seq<VolumeProbe>) {
    exists i :: 0 <= i < |probes| && probes[i].root.Err?
  }

  /**
    `GET /volumes`: each volume is fetched in turn and projected; the first
    fetch that fails ends the walk with a 500, and an error from the walk
    itself is a 500 too. Otherwise the reply lists every volume, in order.
   */
  method ListVolumes(probes: seq<VolumeProbe>, walkError: Option<EngineError>)
    returns (r: Response<seq<VolumeJson>>)
    ensures AnyProbeFailed(probes) || walkError.Some? <==> r == Text(500, "fatal error")
    ensures r.Json? <==> !AnyProbeFailed(probes) && walkError.None?
    ensures r.Json? ==> r.status == 200 && |r.doc| == |probes|
    ensures r.Json? ==> forall i :: 0 <= i < |probes| ==>
              r.doc[i] == VolumeAsJson(probes[i].name, probes[i].root.value)
  {
    var volumes: seq<VolumeJson> := [];
    var i := 0;
    while i < |probes|
      invariant 0 <= i <= |probes|
      invariant forall k :: 0 <= k < i ==> probes[k].root.Ok?
      invariant |volumes| == i
      invariant forall k :: 0 <= k < i ==> volumes[k] == VolumeAsJson(probes[k].name, probes[k].root.value)
    {
      match probes[i].root {
        case Err(_) =>
          return Fatal();
        case Ok(size) =>
          volumes := volumes + [VolumeAsJson(probes[i].name, size)];
      }
      i := i + 1;
    }
    if walkError.Some? {
      return Fatal();
    }
    r := Json(200, volumes);
  }

  /**
    `POST /volumes`: a falsy `name` is 400 "name not defined" before the engine
    is asked; then invalid-data is 400 with the engine's message, any other
    error 500, success 201 with an empty object.
   */
  function CreateVolumeReply(body: Value, err: Option<EngineError>): (r: Response<()>)
    requires !Nullish(body)
    ensures !Truthy(Field(body, "name")) ==> r == Text(400, "name not defined")
    ensures Truthy(Field(body, "name")) ==>
      && (err.None? <==> r == Json(201, ()))
      && (err.Some? && err.value.isInvalidData ==> r == Text(400, err.value.message))
      && (err.Some? && !err.value.isInvalidData ==> r == Text(500, "fatal error"))
  {
    if !Truthy(Field(body, "name")) then Text(400, "name not defined")
    else
      match err
      case None => Json(201, ())
      case Some(e) => OneRuleError(CreateVolumeRules[0], Fatal(), e)
  }

  /** `GET /volumes/:name`: not-found is 404, any other error 500, otherwise the volume's projection. */
  function GetVolumeReply(name: string, lookup: Result<nat, EngineError>): (r: Response<VolumeJson>)
    ensures lookup.Err? && lookup.error.isNotFound ==> r == Text(404, "not found")
    ensures lookup.Err? && !lookup.error.isNotFound ==> r == Text(500, "fatal error")
    ensures r.Json? <==> lookup.Ok?
    ensures r.Json? ==> r.status == 200 && r.doc.name == name && r.doc.size == lookup.value
                        && VolumeNameFromUrl(r.doc.url) == Some(name)
  {
    match lookup
    case Err(e) => OneRuleError(GetVolumeRules[0], Fatal(), e)
    case Ok(size) => Json(200, VolumeAsJson(name, size))
  }

  /**
    `DELETE /volumes/:name`: success is 204 (the handler's code; the unit test
    expects 202); errors follow the uniform policy, not-found tested first.
   */
  function DeleteVolumeReply(name: string, err: Option<EngineError>): (r: Response<()>)
    ensures err.None? <==> r == Text(204, "volume " + name + " deleted")
    ensures err.Some? ==> r == Uniform(err.value)
  {
    match err
    case None => Text(204, "volume " + name + " deleted")
    case Some(e) =>
      DeleteVolumeIsUniform<()>(e);
      DeleteVolumeError(e)
  }

  /** `DELETE /volumes/:name/entries/<path>`: success is 201 with an empty object; invalid-data 400; other errors 500. */
  function RemoveEntryReply(err: Option<EngineError>): (r: Response<()>)
    ensures err.None? <==> r == Json(201, ())
    ensures err.Some? && err.value.isInvalidData ==> r == Text(400, err.value.message)
    ensures err.Some? && !err.value.isInvalidData ==> r == Text(500, "fatal error")
  {
    match err
    case None => Json(201, ())
    case Some(e) => OneRuleError(RemoveEntryRules[0], Fatal(), e)
  }

  /** One entry as `list` yields it: its full path, the URL built for it, and the record. */
  datatype Listed = Listed(fullpath: string, url: string, entry: Entry)

  /**
    `GET /volumes/:name/entries[/<path>]`: every listed entry projected, in
    order; an error from the walk discards them and follows the uniform policy.
   */
  function ListEntriesReply(listed: seq<Listed>, err: Option<EngineError>): (r: Response<seq<EntryJson>>)
    ensures err.Some? ==> r == Uniform(err.value)
    ensures err.None? ==> r.Json? && r.status == 200 && |r.doc| == |listed|
    ensures r.Json? ==> forall i :: 0 <= i < |listed| ==>
              && r.doc[i] == EntryAsJson(listed[i].fullpath, listed[i].url, listed[i].entry)
              && r.doc[i].name == Basename(listed[i].fullpath)
              && (r.doc[i].folder <==> listed[i].entry.objectType == FolderType)
              && r.doc[i].url == listed[i].url
              && r.doc[i].size == listed[i].entry.size
  {
    match err
    case Some(e) =>
      DeleteVolumeIsUniform<seq<EntryJson>>(e);
      ListEntriesError(e)
    case None =>
      Json(200, seq(|listed|, i requires 0 <= i < |listed| => EntryAsJson(listed[i].fullpath, listed[i].url, listed[i].entry)))
  }
}

=== FILE: wrappers.dfy ===
/** Small failure-carrying datatypes shared by the gateway model. */
module Wrappers {

  /** An optional value: the model's stand-in for JavaScript's `undefined`. */
  datatype Option<+T> = None | Some(value: T)

  /** The outcome of an external engine call: a value or the error it reported. */
  datatype Result<+T, +E> = Ok(value: T) | Err(error: E)
}
